=== FILE: README.md ===
# Network traffic indicator and notification list dumper

This project models two pieces of an Android SystemUI fork in Dafny and
proves properties of the models.

**NetworkTraffic** is the status-bar view that shows the current upload and
download rate. Each handler tick does the following:

- reads the byte counters and the clock;
- skips the tick if it comes too soon and was not forced;
- computes a rate in bytes per second;
- decides whether to auto-hide below a KiB/s threshold;
- formats the label on one of two unit ladders: single-line `##0.#` with a
  1024-based prefix, or the compact two-line `000`/`00.0`/`0.00`;
- sets the arrow flags and the arrow drawable;
- updates the view's visibility;
- re-arms itself with a 1500 ms refresh.

A settings reload of an enabled indicator redraws the arrow. If the view is
also attached, the reload resets the rx baseline and the clock and queues a
forced tick. A reload of a disabled indicator drops everything queued.

**ListDumper** renders the debug dump of a notification list. The dump is
either a flat list or a two-level tree of top-level entries and group
children. Each block is one line of the form
`indent[index] key (parent=…) sectionIndex=… sectionName=…`. An optional
record-keeping line follows, starting with a tab.

The view's mutable fields and the handler's message queue are modelled as one
immutable `State` record. `Tick` and `UpdateSettings` are pure transitions on
it. Everything the Java code reads from outside becomes an input:

- the clock;
- `TrafficStats` counters;
- connectivity;
- settings.

Java's truncating division and 32-bit `int` wrap-around are written out
(`JavaArith`). Label text is a sequence of fragments: literal strings, and
numbers that `DecimalFormat` would render. Each number records the rate, the
unit and the pattern, but not the digits.

Three facts about the Java code shape the model:

- The arrow flags `iBytes`/`oBytes` are recomputed from the byte deltas on
  every applied tick (NetworkTraffic.java:119-120). A flag forced on in
  DYNAMIC or COMBINED mode therefore does not carry over to the next tick
  (`TickFlagsMemoryless`).
- The default traffic type when the setting is absent is 0, which is BOTH
  (NetworkTraffic.java:417-419, `ReadConfig`).
- `output != getText()` (NetworkTraffic.java:174) compares references. It is
  always true for a freshly built label, so a shown tick always sets the text.

Files:

- `java_arith.dfy`: truncating division and 32-bit wrap-around.
- `decimal_text.dfy`: `Integer.toString`.
- `traffic_config.dfy`: the settings, their codes and defaults.
- `traffic_format.dfy`: rates and both unit ladders.
- `traffic_tick.dfy`: the tick, visibility, drawable and settings reload.
- `traffic_properties.dfy`: run invariants and cross-call properties.
- `list_dumper.dfy`: the dump.

## Model

| member | source | states |
|---|---|---|
| JavaArith.TruncDiv | packages/SystemUI/src/com/android/systemui/statusbar/policy/NetworkTraffic.java:258-259 | Java's `long` division and `(long)` cast truncate toward zero: for a non-negative numerator `q*b <= a < (q+1)*b`, for a negative one `(q-1)*b < a <= q*b` |
| JavaArith.TruncDivMonotone | packages/SystemUI/src/com/android/systemui/statusbar/policy/NetworkTraffic.java:258-259 | truncating division by a positive divisor is monotone in the numerator |
| JavaArith.WrapInt32 | packages/SystemUI/src/com/android/systemui/statusbar/policy/NetworkTraffic.java:119-120 | `mAutoHideThreshold * 1024` is an `int` product: the result lies in the 32-bit range, is congruent to the exact product modulo 2^32, and equals it when it fits |
| DecimalText.NatToString | packages/SystemUI/src/com/android/systemui/statusbar/notification/collection/ListDumper.java:45 | `Integer.toString` of an index is a non-empty string of digits with no leading zero unless the index is 0 |
| DecimalText.ParseNatToString | packages/SystemUI/src/com/android/systemui/statusbar/notification/collection/ListDumper.java:45 | reading the digits back gives the index: the printed index determines the position |
| DecimalText.NatToStringInjective | packages/SystemUI/src/com/android/systemui/statusbar/notification/collection/ListDumper.java:55 | distinct indices print differently |
| DecimalText.IntToString | packages/SystemUI/src/com/android/systemui/statusbar/notification/collection/ListDumper.java:105-110 | an `int` is printed with a leading '-' exactly when it is negative, followed by the digits of its magnitude |
| TrafficConfig.ModeOf | packages/SystemUI/src/com/android/systemui/statusbar/policy/NetworkTraffic.java:61-65 | traffic-type codes 0..4 name BOTH, UP, DOWN, COMBINED, DYNAMIC, and decoding inverts `ModeCode`; any other code names no mode |
| TrafficConfig.LayoutOf | packages/SystemUI/src/com/android/systemui/statusbar/policy/NetworkTraffic.java:198 | layout 0 is the single-line ladder and every other value the compact one |
| TrafficConfig.ReadConfig | packages/SystemUI/src/com/android/systemui/statusbar/policy/NetworkTraffic.java:412-435 | each setting is read with the default NetworkTraffic.java gives: state 0 (off), type 0 (BOTH), layout 0, threshold 0, arrow 1 (on), location 0; only the value 1 turns the flags on |
| TrafficFormat.Speed | packages/SystemUI/src/com/android/systemui/statusbar/policy/NetworkTraffic.java:197 | the rate is `data*1000/timeDelta` truncated toward zero, bounded on both sides by the exact quotient |
| TrafficFormat.SpeedMonotone | packages/SystemUI/src/com/android/systemui/statusbar/policy/NetworkTraffic.java:197 | more bytes over the same time never give a lower rate |
| TrafficFormat.SimpleScale | packages/SystemUI/src/com/android/systemui/statusbar/policy/NetworkTraffic.java:199-206 | the single-line unit is the largest binary unit not above the rate, so the scaled value lies in [1, 1024) except below 1 B/s and at GiB/s |
| TrafficFormat.SimpleScaleUnique | packages/SystemUI/src/com/android/systemui/statusbar/policy/NetworkTraffic.java:199-206 | only one unit fits a rate, so the fit condition alone defines the single-line ladder |
| TrafficFormat.SimpleScaleMonotone | packages/SystemUI/src/com/android/systemui/statusbar/policy/NetworkTraffic.java:199-206 | a higher rate never picks a smaller unit |
| TrafficFormat.SimpleText | packages/SystemUI/src/com/android/systemui/statusbar/policy/NetworkTraffic.java:199-206 | the single-line label is the rate as a number in the ladder's unit with pattern `##0.#`, followed by that unit's prefix and "B/s" |
| TrafficFormat.CompactStep | packages/SystemUI/src/com/android/systemui/statusbar/policy/NetworkTraffic.java:219-247 | the compact ladder always uses a binary prefix and a pattern with three digits in all; the integer digits match the scaled value (100..1023 → "000", 10..99 → "00.0", below 10 → "0.00", GiB/s always "0.00"); negative rates use "0.00" KiB |
| TrafficFormat.CompactStepUnique | packages/SystemUI/src/com/android/systemui/statusbar/policy/NetworkTraffic.java:219-247 | only one unit and pattern satisfy that fit condition, so it defines the compact ladder |
| TrafficFormat.CompactStepMonotone | packages/SystemUI/src/com/android/systemui/statusbar/policy/NetworkTraffic.java:219-247 | a higher rate never picks a smaller unit on the compact ladder |
| TrafficFormat.CompactWholeWidth | packages/SystemUI/src/com/android/systemui/statusbar/policy/NetworkTraffic.java:221-246 | below 10 GiB/s, and outside the 1000..1023 stretch, the scaled value has exactly as many integer digits as the pattern prints |
| TrafficFormat.CompactWideStretch | packages/SystemUI/src/com/android/systemui/statusbar/policy/NetworkTraffic.java:224-247 | from 1000 to 1023 KiB/s or MiB/s the ladder still picks "000", and the scaled value has four integer digits, one more than the pattern's three |
| TrafficFormat.CompactText | packages/SystemUI/src/com/android/systemui/statusbar/policy/NetworkTraffic.java:249-254 | the two-line label is the rate as a number in the compact ladder's unit and pattern, a line break, then that unit's prefix and "B/s" (never bare "B/s") |
| TrafficFormat.RatesAppend | packages/SystemUI/src/com/android/systemui/statusbar/policy/NetworkTraffic.java:132 | concatenated labels show the rates of both parts in order |
| TrafficFormat.FormatOutput | packages/SystemUI/src/com/android/systemui/statusbar/policy/NetworkTraffic.java:196-210 | the label shows exactly the computed rate; the single-line ladder is used when the layout is 0 or the mode is BOTH, and the compact ladder otherwise |
| TrafficTick.Skipped | packages/SystemUI/src/com/android/systemui/statusbar/policy/NetworkTraffic.java:99-104 | a tick is skipped exactly when it comes less than 95% of the 1500 ms interval after the last update and is not the forced message 1 |
| TrafficTick.BelowThreshold | packages/SystemUI/src/com/android/systemui/statusbar/policy/NetworkTraffic.java:119-120 | an arrow flag compares the raw byte delta with `threshold * 1024` in 32-bit `int`: the exact product while it fits, and the wrapped value otherwise (at 2^31 the bound becomes -2^31) |
| TrafficTick.KiBRate | packages/SystemUI/src/com/android/systemui/statusbar/policy/NetworkTraffic.java:258-259 | the two truncations (to B/s, then to KiB/s) amount to one: the result is `data*1000 / (1024*timeDelta)` truncated toward zero, rounded down for a non-negative delta and up for a negative one |
| TrafficTick.ShouldHide | packages/SystemUI/src/com/android/systemui/statusbar/policy/NetworkTraffic.java:257-269 | with no network the label hides; otherwise it hides exactly when the watched direction is below `threshold` KiB/s (tx for UP, rx for DOWN, both for every other mode), where a non-negative delta is below when its exact rate is, and a negative delta, rounded toward zero, when its exact rate is at most `threshold - 1` KiB/s |
| TrafficProperties.NegativeTxScenario | packages/SystemUI/src/com/android/systemui/statusbar/policy/NetworkTraffic.java:258-262 | a backwards tx counter is rounded toward zero: with UP and threshold 0, -500 B/s shows and -2048 B/s hides; with threshold 1, -2048 B/s hides |
| TrafficTick.RateDelta | packages/SystemUI/src/com/android/systemui/statusbar/policy/NetworkTraffic.java:99-110 | an applied tick divides by at least 1 ms: by `Long.MAX_VALUE` exactly when a forced tick comes less than 1 ms after the last update, and otherwise by the elapsed time |
| TrafficTick.ShownText | packages/SystemUI/src/com/android/systemui/statusbar/policy/NetworkTraffic.java:126-154 | a shown label is `formatOutput` of the tx delta for UP, of the rx delta for DOWN, of the larger delta for DYNAMIC, of their sum for COMBINED and unknown modes, and for BOTH the tx label, a line break and the rx label; its rates are the ones the mode selects |
| TrafficTick.ShownFlags | packages/SystemUI/src/com/android/systemui/statusbar/policy/NetworkTraffic.java:133-172 | UP, DOWN and BOTH keep the threshold flags; DYNAMIC, COMBINED and unknown modes force on the flag of the smaller direction, so at least one flag is set |
| TrafficTick.Decide | packages/SystemUI/src/com/android/systemui/statusbar/policy/NetworkTraffic.java:119-183 | traffic is visible exactly when `shouldHide` is false; a hidden tick has empty text and the raw flags `delta <= threshold*1024`; a shown tick has the mode's label and flags |
| TrafficTick.IconFor | packages/SystemUI/src/com/android/systemui/statusbar/policy/NetworkTraffic.java:443-479 | there is no drawable exactly when the indicator is off or arrows are off; an arrow points the way traffic is above the threshold, and the permitted arrows depend on the mode as the four branches of `updateTrafficDrawable` say |
| TrafficTick.UpdateVisibility | packages/SystemUI/src/com/android/systemui/statusbar/policy/NetworkTraffic.java:507-514 | the view is shown exactly when enabled, traffic is visible and the view sits in the header; a hidden view loses its text; nothing else changes |
| TrafficTick.Tick | packages/SystemUI/src/com/android/systemui/statusbar/policy/NetworkTraffic.java:98-194 | a skipped tick changes nothing; an applied tick stores the new baselines and the second clock reading, leaves exactly one refresh queued, and shows the decided text only if the view ends up visible; it redraws the icon only when arrows are on |
| TrafficTick.UpdateSettings | packages/SystemUI/src/com/android/systemui/statusbar/policy/NetworkTraffic.java:392-410 | a reload never touches the tx baseline, the traffic flag or the arrow flags, and a view that stays shown keeps its text; only an enabled, attached reload resets the rx baseline and the clock, and it records the forced message 1 alongside what is queued; an enabled reload redraws the arrow; a disabled reload empties the queue and leaves the view hidden |
| TrafficProperties.InitialConsistent | packages/SystemUI/src/com/android/systemui/statusbar/policy/NetworkTraffic.java:336-349 | whatever visibility the framework gives the new view, the constructor's settings reload (not yet attached) leaves a state that satisfies the run invariant, with the view hidden and nothing queued |
| TrafficProperties.TickPreservesConsistent | packages/SystemUI/src/com/android/systemui/statusbar/policy/NetworkTraffic.java:184-193 | a tick keeps the invariant: a hidden view has no text, a shown view follows visible traffic, and at most one refresh is queued, always with the 1500 ms delay |
| TrafficProperties.SettingsPreservesConsistent | packages/SystemUI/src/com/android/systemui/statusbar/policy/NetworkTraffic.java:397-409 | a settings reload keeps the same invariant |
| TrafficProperties.RunConsistent | packages/SystemUI/src/com/android/systemui/statusbar/policy/NetworkTraffic.java:186-193 | every sequence of ticks and reloads from a consistent state keeps the invariant, so refreshes never pile up |
| TrafficProperties.SpeedOverLongMax | packages/SystemUI/src/com/android/systemui/statusbar/policy/NetworkTraffic.java:106-109 | dividing by `Long.MAX_VALUE` gives rate 0 for any delta whose rate numerator fits in a `long` |
| TrafficProperties.ForcedTickZeroRates | packages/SystemUI/src/com/android/systemui/statusbar/policy/NetworkTraffic.java:101-110 | a forced tick less than 1 ms after the last update shows only zero rates, and shows anything exactly when connected with a threshold of at most 0 |
| TrafficProperties.ReloadThenForcedTick | packages/SystemUI/src/com/android/systemui/statusbar/policy/NetworkTraffic.java:399-404 | a reload queues the forced tick; that tick, run at the reload's clock, shows zero rates, stores the new baselines and leaves exactly one refresh queued |
| TrafficProperties.ShouldHideThresholdMonotone | packages/SystemUI/src/com/android/systemui/statusbar/policy/NetworkTraffic.java:257-269 | raising the auto-hide threshold never shows a hidden indicator |
| TrafficProperties.KiBRateMonotone | packages/SystemUI/src/com/android/systemui/statusbar/policy/NetworkTraffic.java:258-259 | the KiB/s rate compared with the threshold is monotone in the byte delta |
| TrafficProperties.ShouldHideTrafficAntitone | packages/SystemUI/src/com/android/systemui/statusbar/policy/NetworkTraffic.java:257-269 | more traffic in either direction never hides a shown indicator |
| TrafficProperties.ShouldHideByDirection | packages/SystemUI/src/com/android/systemui/statusbar/policy/NetworkTraffic.java:257-269 | the aggregate modes hide exactly when both single-direction modes would; UP ignores rx and DOWN ignores tx; no network always hides |
| TrafficProperties.TickFlagsMemoryless | packages/SystemUI/src/com/android/systemui/statusbar/policy/NetworkTraffic.java:119-120 | the flags, text and visibility a tick produces do not depend on the previous tick's flags, text or visibility |
| TrafficProperties.DownScenario | packages/SystemUI/src/com/android/systemui/statusbar/policy/NetworkTraffic.java:129-130 | a DOWN indicator with threshold 0 that sees 2048 received bytes over 1000 ms shows "2KiB/s" (value 2048 at KiB) on one line with the down arrow |
| ListDumper.JoinNames | packages/SystemUI/src/com/android/systemui/statusbar/notification/collection/ListDumper.java:118-122 | no names give the empty string and one name gives that name |
| ListDumper.JoinNamesAppend | packages/SystemUI/src/com/android/systemui/statusbar/notification/collection/ListDumper.java:118-122 | joining two non-empty runs of names puts exactly one ", " between them |
| ListDumper.ArrayToString | packages/SystemUI/src/com/android/systemui/statusbar/notification/collection/ListDumper.java:122 | `Arrays.toString` output is the ", "-separated names between brackets |
| ListDumper.FieldText | packages/SystemUI/src/com/android/systemui/statusbar/notification/collection/ListDumper.java:116-152 | a record-keeping field prints something exactly when it is present (extenders non-empty, filter or promoter set, cancelled, inflation error, dismissed), and what it prints ends with a space |
| ListDumper.FieldPosition | packages/SystemUI/src/com/android/systemui/statusbar/notification/collection/ListDumper.java:116-152 | every field has its place in the fixed order extenders, filter, promoter, cancellation, inflation error, dismiss state |
| ListDumper.FieldsText | packages/SystemUI/src/com/android/systemui/statusbar/notification/collection/ListDumper.java:114-154 | the texts of a run of fields are empty exactly when none of the fields is present, and a one-field run is that field's text |
| ListDumper.FieldsTextAppend | packages/SystemUI/src/com/android/systemui/statusbar/notification/collection/ListDumper.java:114-154 | writing two runs of fields gives the first run's texts followed by the second's |
| ListDumper.RecordKeepingInOrder | packages/SystemUI/src/com/android/systemui/statusbar/notification/collection/ListDumper.java:114-154 | the record-keeping string is the texts of lifetime extenders, filter, promoter, cancellation reason, inflation error and dismiss state, in that order |
| ListDumper.RecordKeepingEmpty | packages/SystemUI/src/com/android/systemui/statusbar/notification/collection/ListDumper.java:154-159 | the record-keeping string is empty, and the line is omitted, exactly when no field of any kind is present |
| ListDumper.SectionFragment | packages/SystemUI/src/com/android/systemui/statusbar/notification/collection/ListDumper.java:105-110 | the section fields are printed exactly when a section is attached |
| ListDumper.RecordKeepingLine | packages/SystemUI/src/com/android/systemui/statusbar/notification/collection/ListDumper.java:154-159 | the record-keeping line is omitted exactly when its string is empty, and otherwise starts with a line break, a tab and the indent |
| ListDumper.BlockTail | packages/SystemUI/src/com/android/systemui/statusbar/notification/collection/ListDumper.java:162 | every block ends with a line break |
| ListDumper.EntryBlockShape | packages/SystemUI/src/com/android/systemui/statusbar/notification/collection/ListDumper.java:95-97 | every block starts with the indent, the bracketed index and the key, and ends with a line break |
| ListDumper.EntryBlockRecordKeepingLast | packages/SystemUI/src/com/android/systemui/statusbar/notification/collection/ListDumper.java:154-162 | with record keeping asked for, the block ends with the record-keeping line and the line break; by `RecordKeepingLine`, that last line is a tab, the indent and the record-keeping string whenever the string is non-empty |
| ListDumper.EntryBlockNoFields | packages/SystemUI/src/com/android/systemui/statusbar/notification/collection/ListDumper.java:112-160 | asking for record keeping changes nothing when no field has anything to report |
| ListDumper.DotMarksChild | packages/SystemUI/src/com/android/systemui/statusbar/notification/collection/ListDumper.java:45-55 | an index holds a dot exactly when it names a group child |
| ListDumper.LabelTextInjective | packages/SystemUI/src/com/android/systemui/statusbar/notification/collection/ListDumper.java:45-55 | distinct positions (`i` versus `i.j`) print distinct indices |
| ListDumper.ChildRowsAt | packages/SystemUI/src/com/android/systemui/statusbar/notification/collection/ListDumper.java:53-59 | child j of group i is printed with index `i.j`, two spaces further in, with its parent |
| ListDumper.ListRowsAt | packages/SystemUI/src/com/android/systemui/statusbar/notification/collection/ListDumper.java:76-84 | notification j of the flat list is printed with index `j` at the given indent, without its parent |
| ListDumper.TreeRowsLength | packages/SystemUI/src/com/android/systemui/statusbar/notification/collection/ListDumper.java:42-61 | the tree dump has one block per top-level entry plus one per group child |
| ListDumper.TreeRowsTop | packages/SystemUI/src/com/android/systemui/statusbar/notification/collection/ListDumper.java:42-49 | top-level entry i's block comes after every earlier entry's block and children, has index `i` at the base indent, prints its parent, and is followed by its children |
| ListDumper.TreeRowsChild | packages/SystemUI/src/com/android/systemui/statusbar/notification/collection/ListDumper.java:50-60 | child j of entry i sits j+1 blocks after its group's block, with index `i.j`, one indent step further in |
| ListDumper.TreeRowsWithParent | packages/SystemUI/src/com/android/systemui/statusbar/notification/collection/ListDumper.java:48 | every block of the tree dump prints its parent |
| ListDumper.SinglesTreeIsList | packages/SystemUI/src/com/android/systemui/statusbar/notification/collection/ListDumper.java:36-86 | a tree of ungrouped notifications dumps the same blocks as the flat list of them, except that each prints its parent |
| ListDumper.ParentFragmentPlacement | packages/SystemUI/src/com/android/systemui/statusbar/notification/collection/ListDumper.java:99-103 | the tree and list forms of a block differ only by the parent fragment, inserted right after the key |
| ListDumper.DumpChildren | packages/SystemUI/src/com/android/systemui/statusbar/notification/collection/ListDumper.java:50-60 | the inner loop appends the blocks of the group's children in order |
| ListDumper.DumpTree | packages/SystemUI/src/com/android/systemui/statusbar/notification/collection/ListDumper.java:36-64 | the loop writes exactly the rendering of the tree's row sequence: each entry, then its children; an empty list dumps "" |
| ListDumper.DumpList | packages/SystemUI/src/com/android/systemui/statusbar/notification/collection/ListDumper.java:71-86 | the loop writes exactly the rendering of the list's row sequence; an empty list dumps "" |

## Left out

- `DecimalFormat` rendering is not modelled. A number fragment records the value, unit and pattern, but not the digits, the rounding, or the single-line formatter's `setMaximumIntegerDigits(3)`. That setting keeps only the last three integer digits, which cuts a scaled value of 1000 to 1023, GiB/s values of 1000 and above, and every rate of -1000 B/s or less (the bytes branch takes every rate below 1024).
- TrafficFormat.Speed: the Java code divides in single-precision float (`data / (timeDelta / 1000F)`), and the model takes the exact quotient truncated toward zero. The gap goes both ways and grows with the rate. At ordinary rates it is one B/s: `1.427f` is slightly above 1.427, so 1427 bytes over 1427 ms give 999 B/s in Java but 1000 in the model. At tens of MiB/s it is tens of B/s: 99189260 bytes over 1430 ms give 69363128 B/s in Java and 69363118 in the model, and 989880352 bytes over 1440 ms differ by 79 B/s the other way.
- TrafficTick.ShouldHide: it compares the model's exact rate, which can land one KiB/s above or below the Java code's, so the hide decision can flip either way at the threshold. 182656 bytes over 1427 ms give 124 KiB/s in Java but 125 in the model, so DOWN with threshold 125 hides in Java and shows in the model. 1564545 bytes over 1548 ms give 987 KiB/s in Java but 986 in the model, so DOWN with threshold 987 shows in Java and hides in the model.
- TrafficTick.Decide: its visibility and its label's rates use `ShouldHide` and `Speed`, so both differences above carry over.
- The subtraction of 64-bit counters (`newTotal - total`) is unbounded. Counter wrap-around is outside the model.
- I/O is replaced by inputs:
  - `TrafficStats`, `SystemClock`, `ConnectivityManager` and the settings provider become the fields of `Reading`, `Config` and `UpdateSettings`'s parameters.
  - The two clock reads of one tick are two independent inputs.
- The handler is only partly modelled. `Handler` message delivery, `removeCallbacks` and the broadcast receiver are modelled only through the queue in `State.pending`. No event loop runs that queue.
- `State.pending` keeps posts in the order they were made, not the order the handler delivers them. The handler delivers by due time, so the immediate message 1 of a reload (NetworkTraffic.java:403) runs before a refresh posted earlier with a 1500 ms delay (:193), and that tick's `clearHandlerCallbacks` (:192) removes the refresh.
- Text size, colours, padding, gravity, line spacing and `updateTextSize` are not modelled. They affect appearance only.
- The relative-size spans of the compact label are not modelled.
- `onDensityOrFontScaleChanged`, the settings observer registration and `onAttachedToWindow`/`onDetachedFromWindow` are outside the core.
- ListDumper: a group whose summary is null is not modelled. The Java code would throw a `NullPointerException` on it when record keeping is requested.
- ListDumper: the `DismissState` names and `REASON_NOT_CANCELED` come from `NotificationEntry` and `NotifCollection`, which are not part of this model. The sentinel is modelled as an absent cancellation reason.
- ListDumper: a pluggable's `toString` (filter, promoter) and `getName` (lifetime extender) are taken as given strings.

=== FILE: decimal_text.dfy ===
/** Decimal rendering of integers, as `Integer.toString` and
    `StringBuilder.append(int)` produce it. */
module DecimalText {

  predicate IsDigit(c: char) {
    '0' <= c <= '9'
  }

  predicate AllDigits(s: string) {
    forall i :: 0 <= i < |s| ==> IsDigit(s[i])
  }

  function DigitChar(d: int): (c: char)
    requires 0 <= d < 10
    ensures IsDigit(c)
  {
    (d + '0' as int) as char
  }

  function DigitValue(c: char): (d: nat)
    requires IsDigit(c)
    ensures d < 10
  {
    c as int - '0' as int
  }

  /** The shortest decimal numeral of `n`: digits only, no leading zero. */
  function NatToString(n: nat): (s: string)
    ensures |s| >= 1
    ensures AllDigits(s)
    ensures s[0] == '0' <==> n == 0
    decreases n
  {
    if n < 10 then [DigitChar(n)] else NatToString(n / 10) + [DigitChar(n % 10)]
  }

  /** Reads a numeral back; the inverse of `NatToString`. */
  function ParseDigits(s: string): nat
    requires AllDigits(s)
  {
    if |s| == 0 then 0 else ParseDigits(s[..|s| - 1]) * 10 + DigitValue(s[|s| - 1])
  }

  lemma {:induction false} ParseNatToString(n: nat)
    ensures ParseDigits(NatToString(n)) == n
    decreases n
  {
    var s := NatToString(n);
    if n < 10 {
      assert s[..0] == [];
    } else {
      assert s[..|s| - 1] == NatToString(n / 10);
      ParseNatToString(n / 10);
    }
  }

  /** Distinct numbers get distinct numerals. */
  lemma NatToStringInjective(a: nat, b: nat)
    requires NatToString(a) == NatToString(b)
    ensures a == b
  {
    ParseNatToString(a);
    ParseNatToString(b);
  }

  /** `Integer.toString` of a possibly negative value. */
  function IntToString(i: int): (s: string)
    ensures |s| >= 1
    ensures s[0] == '-' <==> i < 0
    ensures i >= 0 ==> s == NatToString(i)
    ensures i < 0 ==> s[1..] == NatToString(-i)
  {
    if i < 0 then "-" + NatToString(-i) else NatToString(i)
  }
}

=== FILE: java_arith.dfy ===
/** Java integer semantics the traffic indicator relies on, written out over
    Dafny's unbounded integers: truncating division and 32-bit wrap-around. */
module JavaArith {

  /** `Long.MAX_VALUE`. */
  const LONG_MAX: int := 0x7FFF_FFFF_FFFF_FFFF

  const INT32_MIN: int := -0x8000_0000
  const INT32_MODULUS: int := 0x1_0000_0000

  /** Java's integer `/` and the `(long)` cast of a quotient: the result is
      truncated toward zero (Dafny's own `/` is Euclidean). */
  function TruncDiv(a: int, b: int): (q: int)
    requires b > 0
    ensures a >= 0 ==> 0 <= q && q * b <= a < (q + 1) * b
    ensures a < 0 ==> q <= 0 && (q - 1) * b < a <= q * b
  {
    if a >= 0 then DivBounds(a, b); a / b
    else DivBounds(-a, b); -((-a) / b)
  }

  /** Dafny's `/` on a non-negative dividend: the quotient brackets it. */
  lemma DivBounds(a: int, b: int)
    requires a >= 0 && b > 0
    ensures 0 <= a / b && (a / b) * b <= a < (a / b + 1) * b
  {
    var q, r := a / b, a % b;
    assert a == q * b + r && 0 <= r < b;
    assert (q + 1) * b == q * b + b;
  }

  /** Truncating division never moves a larger dividend below a smaller one. */
  lemma TruncDivMonotone(a1: int, a2: int, b: int)
    requires b > 0 && a1 <= a2
    ensures TruncDiv(a1, b) <= TruncDiv(a2, b)
  {
    var q1, q2 := TruncDiv(a1, b), TruncDiv(a2, b);
    if a1 >= 0 {
      // q1 * b <= a1 <= a2 < (q2 + 1) * b
      MulCancel(q1, q2 + 1, b);
    } else if a2 < 0 {
      // (q1 - 1) * b < a1 <= a2 <= q2 * b
      MulCancel(q1 - 1, q2, b);
    }
  }

  lemma MulCancel(x: int, y: int, b: int)
    requires b > 0 && x * b < y * b
    ensures x < y
  {
    assert (y - x) * b == y * b - x * b;
  }

  /** The value of `x` as a Java `int`: the unique value in the 32-bit range
      that agrees with `x` modulo 2^32. */
  function WrapInt32(x: int): (r: int)
    ensures INT32_MIN <= r < -INT32_MIN
    ensures (x - r) % INT32_MODULUS == 0
    ensures INT32_MIN <= x < -INT32_MIN ==> r == x
  {
    (x - INT32_MIN) % INT32_MODULUS + INT32_MIN
  }
}

=== FILE: list_dumper.dfy ===
/** The debug dump of a notification list: a flat list, or a two-level tree
    of top-level entries and group children, rendered one block per entry
    with a positional index, optional parent and section fields, and an
    optional record-keeping line. */
module ListDumper {
  import opened DecimalText

  /** A Java reference that may be null. */
  datatype Option<T> = None | Some(value: T)

  /** Extra indentation of group children. */
  const INDENT: string := "  "

  datatype DismissState = NotDismissed | Dismissed | ParentDismissed {
    /** The enum constant's name, which is what `append` prints. */
    function Name(): string {
      match this
      case NotDismissed => "NOT_DISMISSED"
      case Dismissed => "DISMISSED"
      case ParentDismissed => "PARENT_DISMISSED"
    }
  }

  /** Which pluggables put a notification in its current state. A `None`
      cancellation reason is `REASON_NOT_CANCELED`; the filter and promoter
      are their `toString` forms. */
  datatype RecordKeeping = RecordKeeping(
    lifetimeExtenders: seq<string>,
    excludingFilter: Option<string>,
    promoter: Option<string>,
    cancellationReason: Option<int>,
    hasInflationError: bool,
    dismissState: DismissState)

  /** The fields every list entry prints: its key, its parent's key, and its
      section (index and, when a section is attached, its name). */
  datatype Header = Header(
    key: string,
    parentKey: Option<string>,
    sectionIndex: int,
    sectionName: Option<string>)

  datatype Notification = Notification(header: Header, records: RecordKeeping)

  /** A top-level entry: a single notification or a group, whose record
      keeping is that of its summary. */
  datatype ListEntry =
    | Single(notification: Notification)
    | Group(groupHeader: Header, summary: Notification, children: seq<Notification>)
  {
    function Head(): Header {
      match this
      case Single(n) => n.header
      case Group(h, _, _) => h
    }

    /** `getRepresentativeEntry`. */
    function Representative(): Notification {
      match this
      case Single(n) => n
      case Group(_, summary, _) => summary
    }

    function Members(): seq<Notification> {
      match this
      case Single(_) => []
      case Group(_, _, children) => children
    }
  }

  /** `", "`-separated names. */
  function JoinNames(names: seq<string>): (s: string)
    ensures names == [] ==> s == ""
    ensures |names| == 1 ==> s == names[0]
  {
    if names == [] then ""
    else if |names| == 1 then names[0]
    else names[0] + ", " + JoinNames(names[1..])
  }

  /** Joining two non-empty runs of names puts one separator between them. */
  lemma {:induction false} JoinNamesAppend(a: seq<string>, b: seq<string>)
    requires a != [] && b != []
    ensures JoinNames(a + b) == JoinNames(a) + ", " + JoinNames(b)
    decreases |a|
  {
    if |a| == 1 {
      assert (a + b)[1..] == b;
    } else {
      assert (a + b)[1..] == a[1..] + b;
      JoinNamesAppend(a[1..], b);
    }
  }

  /** `Arrays.toString` of an array of names: the names, separated by
      `", "`, between brackets. */
  function ArrayToString(names: seq<string>): (s: string)
    ensures |s| >= 2 && s[0] == '[' && s[|s| - 1] == ']'
    ensures s[1..|s| - 1] == JoinNames(names)
  {
    var s := "[" + JoinNames(names) + "]";
    assert s[1..|s| - 1] == JoinNames(names);
    s
  }

  /** The record-keeping fields, one by one. */
  datatype Field = LifetimeExtenders | Filter | Promoter | Cancellation | InflationError | Dismiss

  /** Whether a field has anything to report. */
  predicate Present(rk: RecordKeeping, f: Field) {
    match f
    case LifetimeExtenders => rk.lifetimeExtenders != []
    case Filter => rk.excludingFilter.Some?
    case Promoter => rk.promoter.Some?
    case Cancellation => rk.cancellationReason.Some?
    case InflationError => rk.hasInflationError
    case Dismiss => rk.dismissState != NotDismissed
  }

  /** A single field's text: `name=value ` when present, nothing otherwise. */
  function FieldText(rk: RecordKeeping, f: Field): (s: string)
    ensures s != [] <==> Present(rk, f)
    ensures s != [] ==> s[|s| - 1] == ' '
  {
    if !Present(rk, f) then ""
    else match f
      case LifetimeExtenders => "lifetimeExtenders=" + ArrayToString(rk.lifetimeExtenders) + " "
      case Filter => "filter=" + rk.excludingFilter.value + " "
      case Promoter => "promoter=" + rk.promoter.value + " "
      case Cancellation => "cancellationReason=" + IntToString(rk.cancellationReason.value) + " "
      case InflationError => "(!)hasInflationError "
      case Dismiss => "dismissState=" + rk.dismissState.Name() + " "
  }

  /** The order in which the record-keeping fields are written. */
  const FIELD_ORDER: seq<Field> := [LifetimeExtenders, Filter, Promoter, Cancellation, InflationError, Dismiss]

  /** Where a field is written among the six. */
  function FieldPosition(f: Field): (k: nat)
    ensures k < |FIELD_ORDER| && FIELD_ORDER[k] == f
  {
    match f
    case LifetimeExtenders => 0
    case Filter => 1
    case Promoter => 2
    case Cancellation => 3
    case InflationError => 4
    case Dismiss => 5
  }

  /** The texts of the given fields, one after another; empty exactly when
      none of them is present. */
  function FieldsText(rk: RecordKeeping, fields: seq<Field>): (s: string)
    ensures s == "" <==> forall k :: 0 <= k < |fields| ==> !Present(rk, fields[k])
    ensures |fields| == 1 ==> s == FieldText(rk, fields[0])
  {
    if fields == [] then ""
    else
      var rest := FieldsText(rk, fields[1..]);
      assert forall k :: 1 <= k < |fields| ==> fields[k] == fields[1..][k - 1];
      FieldText(rk, fields[0]) + rest
  }

  /** Writing two runs of fields writes the first run's texts, then the
      second's. */
  lemma {:induction false} FieldsTextAppend(rk: RecordKeeping, a: seq<Field>, b: seq<Field>)
    ensures FieldsText(rk, a + b) == FieldsText(rk, a) + FieldsText(rk, b)
    decreases |a|
  {
    if a == [] {
      assert a + b == b;
    } else {
      assert (a + b)[0] == a[0] && (a + b)[1..] == a[1..] + b;
      FieldsTextAppend(rk, a[1..], b);
      assert FieldsText(rk, a + b) == FieldText(rk, a[0]) + FieldsText(rk, a[1..] + b);
    }
  }

  /** The record-keeping string: each present field, in the fixed order. */
  function RecordKeepingText(rk: RecordKeeping): string {
    FieldsText(rk, FIELD_ORDER)
  }

  /** The record-keeping string is the six fields' texts in the order
      lifetime extenders, filter, promoter, cancellation, inflation error,
      dismiss state. */
  lemma RecordKeepingInOrder(rk: RecordKeeping)
    ensures RecordKeepingText(rk)
         == FieldText(rk, LifetimeExtenders) + FieldText(rk, Filter) + FieldText(rk, Promoter)
          + FieldText(rk, Cancellation) + FieldText(rk, InflationError) + FieldText(rk, Dismiss)
  {
    var f := FIELD_ORDER;
    assert f == [f[0]] + [f[1]] + [f[2]] + [f[3]] + [f[4]] + [f[5]];
    FieldsTextAppend(rk, [f[0]] + [f[1]] + [f[2]] + [f[3]] + [f[4]], [f[5]]);
    FieldsTextAppend(rk, [f[0]] + [f[1]] + [f[2]] + [f[3]], [f[4]]);
    FieldsTextAppend(rk, [f[0]] + [f[1]] + [f[2]], [f[3]]);
    FieldsTextAppend(rk, [f[0]] + [f[1]], [f[2]]);
    FieldsTextAppend(rk, [f[0]], [f[1]]);
  }

  /** The record-keeping string is empty exactly when no field is present. */
  lemma RecordKeepingEmpty(rk: RecordKeeping)
    ensures RecordKeepingText(rk) == "" <==> forall f: Field :: !Present(rk, f)
  {
    if RecordKeepingText(rk) == "" {
      forall f: Field
        ensures !Present(rk, f)
      {
        var k := FieldPosition(f);
        assert !Present(rk, FIELD_ORDER[k]);
      }
    }
  }

  /** `" (parent=<key>)"`, with a missing parent printed as `null`. */
  function ParentFragment(h: Header): string {
    " (parent=" + (match h.parentKey case Some(k) => k case None => "null") + ")"
  }

  /** The section fields, printed only when a section is attached. */
  function SectionFragment(h: Header): (s: string)
    ensures s == "" <==> h.sectionName == None
  {
    match h.sectionName
    case Some(name) => " sectionIndex=" + IntToString(h.sectionIndex) + " sectionName=" + name
    case None => ""
  }

  /** The record-keeping line: a line break, a tab, the indent and the
      record-keeping string, or nothing when that string is empty. */
  function RecordKeepingLine(rk: RecordKeeping, indent: string): (s: string)
    ensures s == "" <==> RecordKeepingText(rk) == ""
    ensures s != "" ==> s == "\n\t" + indent + RecordKeepingText(rk)
  {
    var t := RecordKeepingText(rk);
    if t == "" then "" else "\n\t" + indent + t
  }

  /** `indent[index] key`, the start of every block. */
  function BlockHead(h: Header, index: string, indent: string): string {
    indent + "[" + index + "] " + h.key
  }

  /** What follows the key and the optional parent: the section fields,
      the optional record-keeping line, and the line break. */
  function BlockTail(h: Header, rk: RecordKeeping, indent: string, includeRecordKeeping: bool): (s: string)
    ensures |s| > 0 && s[|s| - 1] == '\n'
  {
    SectionFragment(h) + (if includeRecordKeeping then RecordKeepingLine(rk, indent) else "") + "\n"
  }

  /** `dumpEntry`: one block of the dump. */
  function EntryBlock(h: Header, rk: RecordKeeping, index: string, indent: string,
                      includeParent: bool, includeRecordKeeping: bool): string
  {
    BlockHead(h, index, indent)
    + (if includeParent then ParentFragment(h) else "")
    + BlockTail(h, rk, indent, includeRecordKeeping)
  }

  /** A `dumpEntry` block starts with the indent, the bracketed index and the
      key, and ends with the line break. */
  lemma EntryBlockShape(h: Header, rk: RecordKeeping, index: string, indent: string,
                        includeParent: bool, includeRecordKeeping: bool)
    ensures var s := EntryBlock(h, rk, index, indent, includeParent, includeRecordKeeping);
            && indent + "[" + index + "] " + h.key <= s
            && s[|s| - 1] == '\n'
  {
    var tail := BlockTail(h, rk, indent, includeRecordKeeping);
    var rest := (if includeParent then ParentFragment(h) else "") + tail;
    AppendAssoc(BlockHead(h, index, indent), if includeParent then ParentFragment(h) else "", tail);
    DropPrefix(BlockHead(h, index, indent), rest);
  }

  /** With record keeping asked for, the block ends with the record-keeping
      line and then the line break. */
  lemma EntryBlockRecordKeepingLast(h: Header, rk: RecordKeeping, index: string, indent: string, includeParent: bool)
    ensures var s := EntryBlock(h, rk, index, indent, includeParent, true);
            var line := RecordKeepingLine(rk, indent) + "\n";
            |line| <= |s| && s[|s| - |line|..] == line
  {
    var lead := BlockHead(h, index, indent) + (if includeParent then ParentFragment(h) else "");
    var line := RecordKeepingLine(rk, indent) + "\n";
    AppendAssoc(SectionFragment(h), RecordKeepingLine(rk, indent), "\n");
    AppendAssoc(lead, SectionFragment(h), line);
    DropPrefix(lead + SectionFragment(h), line);
  }

  /** Asking for record keeping changes nothing when no field has anything
      to report. */
  lemma EntryBlockNoFields(h: Header, rk: RecordKeeping, index: string, indent: string, includeParent: bool)
    requires RecordKeepingText(rk) == ""
    ensures EntryBlock(h, rk, index, indent, includeParent, true) == EntryBlock(h, rk, index, indent, includeParent, false)
  {
    assert BlockTail(h, rk, indent, true) == BlockTail(h, rk, indent, false);
  }

  /** The positional index of a block: `i` for top-level entry i, `i.j` for
      child j of group i. */
  datatype Label = Top(i: nat) | Child(i: nat, j: nat)

  function LabelText(l: Label): string {
    match l
    case Top(i) => NatToString(i)
    case Child(i, j) => NatToString(i) + "." + NatToString(j)
  }

  /** A label holds a dot exactly when it names a group child. */
  lemma DotMarksChild(l: Label)
    ensures '.' in LabelText(l) <==> l.Child?
  {
    match l {
      case Top(i) =>
        assert forall k :: 0 <= k < |NatToString(i)| ==> IsDigit(NatToString(i)[k]);
      case Child(i, j) =>
        assert LabelText(l)[|NatToString(i)|] == '.';
    }
  }

  /** Distinct positions get distinct labels. */
  lemma LabelTextInjective(a: Label, b: Label)
    requires LabelText(a) == LabelText(b)
    ensures a == b
  {
    DotMarksChild(a);
    DotMarksChild(b);
    if a.Top? {
      NatToStringInjective(a.i, b.i);
    } else {
      DottedSplit(NatToString(a.i), NatToString(a.j), NatToString(b.i), NatToString(b.j));
      NatToStringInjective(a.i, b.i);
      NatToStringInjective(a.j, b.j);
    }
  }

  /** In `a + "." + b` with `a` a numeral, the first dot follows `a`. */
  lemma FirstDot(a: string, b: string)
    requires AllDigits(a)
    ensures (a + "." + b)[|a|] == '.'
    ensures forall k :: 0 <= k < |a| ==> (a + "." + b)[k] != '.'
  {
  }

  /** A dot between two numerals marks where the first one ends. */
  lemma DottedSplit(a: string, b: string, a': string, b': string)
    requires AllDigits(a) && AllDigits(a')
    requires a + "." + b == a' + "." + b'
    ensures a == a' && b == b'
  {
    var s := a + "." + b;
    FirstDot(a, b);
    FirstDot(a', b');
    assert s[|a|] == '.' && s[|a'|] == '.';
    assert |a| == |a'|;
    assert a == s[..|a|] == a';
    assert b == s[|a| + 1..] == b';
  }

  /** One block to be rendered: index, indent, the entry's fields, and
      whether the parent is printed. */
  datatype Row = Row(position: Label, indent: string, header: Header, records: RecordKeeping, withParent: bool)

  function RenderRow(row: Row, includeRecordKeeping: bool): string {
    EntryBlock(row.header, row.records, LabelText(row.position), row.indent, row.withParent, includeRecordKeeping)
  }

  /** `f` of each element, written one after another. */
  function Join<T>(f: T -> string, xs: seq<T>): string {
    if xs == [] then "" else Join(f, xs[..|xs| - 1]) + f(xs[|xs| - 1])
  }

  lemma {:induction false} JoinAppend<T>(f: T -> string, a: seq<T>, b: seq<T>)
    ensures Join(f, a + b) == Join(f, a) + Join(f, b)
    decreases |b|
  {
    if b == [] {
      assert a + b == a;
    } else {
      var b' := b[..|b| - 1];
      assert (a + b)[..|a + b| - 1] == a + b';
      JoinAppend(f, a, b');
    }
  }

  /** The renderer of single rows. */
  function BlockOf(includeRecordKeeping: bool): Row -> string {
    (row: Row) => RenderRow(row, includeRecordKeeping)
  }

  /** The text of a sequence of rows, one block after another. */
  function RenderRows(rows: seq<Row>, includeRecordKeeping: bool): string {
    Join(BlockOf(includeRecordKeeping), rows)
  }

  lemma RenderRowsAppend(a: seq<Row>, b: seq<Row>, k: bool)
    ensures RenderRows(a + b, k) == RenderRows(a, k) + RenderRows(b, k)
  {
    JoinAppend(BlockOf(k), a, b);
  }

  /** Appending one row appends its block. */
  lemma RenderRowsSnoc(rows: seq<Row>, row: Row, k: bool)
    ensures RenderRows(rows + [row], k) == RenderRows(rows, k) + RenderRow(row, k)
  {
    assert (rows + [row])[..|rows|] == rows;
  }

  /** The rows of the children of top-level entry i: child j gets index
      `i.j`, sits two spaces further in, and prints its parent. */
  function ChildRows(i: nat, children: seq<Notification>, indent: string): (rows: seq<Row>)
    ensures |rows| == |children|
  {
    if children == [] then []
    else
      var n := |children| - 1;
      ChildRows(i, children[..n], indent) + [Row(Child(i, n), indent + INDENT, children[n].header, children[n].records, true)]
  }

  lemma {:induction false} ChildRowsAt(i: nat, children: seq<Notification>, indent: string)
    ensures forall j :: 0 <= j < |children| ==>
              ChildRows(i, children, indent)[j]
              == Row(Child(i, j), indent + INDENT, children[j].header, children[j].records, true)
  {
    if children != [] {
      ChildRowsAt(i, children[..|children| - 1], indent);
    }
  }

  /** The rows of top-level entry i: its own, then its children's. */
  function EntryRows(e: ListEntry, i: nat, indent: string): seq<Row> {
    [Row(Top(i), indent, e.Head(), e.Representative().records, true)] + ChildRows(i, e.Members(), indent)
  }

  /** The rows `dumpTree` renders, in order. */
  function TreeRows(entries: seq<ListEntry>, indent: string): seq<Row> {
    if entries == [] then []
    else TreeRows(entries[..|entries| - 1], indent) + EntryRows(entries[|entries| - 1], |entries| - 1, indent)
  }

  /** The rows `dumpList` renders: one per notification, without parent. */
  function ListRows(entries: seq<Notification>, indent: string): (rows: seq<Row>)
    ensures |rows| == |entries|
  {
    if entries == [] then []
    else
      var n := |entries| - 1;
      ListRows(entries[..n], indent) + [Row(Top(n), indent, entries[n].header, entries[n].records, false)]
  }

  /** The list dump: notification j gets index `j` at the given indent and
      does not print its parent. */
  lemma {:induction false} ListRowsAt(entries: seq<Notification>, indent: string)
    ensures forall j :: 0 <= j < |entries| ==>
              ListRows(entries, indent)[j] == Row(Top(j), indent, entries[j].header, entries[j].records, false)
  {
    if entries != [] {
      ListRowsAt(entries[..|entries| - 1], indent);
    }
  }

  /** A tree of single notifications dumps the same rows as the flat list of
      those notifications, except that every row prints its parent. */
  lemma {:induction false} SinglesTreeIsList(entries: seq<ListEntry>, indent: string)
    requires forall k :: 0 <= k < |entries| ==> entries[k].Single?
    ensures var tree := TreeRows(entries, indent);
            var list := ListRows(seq(|entries|, k requires 0 <= k < |entries| => entries[k].notification), indent);
            && |tree| == |list|
            && forall k :: 0 <= k < |tree| ==> tree[k] == list[k].(withParent := true)
  {
    var ns := seq(|entries|, k requires 0 <= k < |entries| => entries[k].notification);
    if entries != [] {
      var n := |entries| - 1;
      var init := entries[..n];
      var ns' := seq(|init|, k requires 0 <= k < |init| => init[k].notification);
      SinglesTreeIsList(init, indent);
      assert ns[..n] == ns';
      assert EntryRows(entries[n], n, indent) == [Row(Top(n), indent, ns[n].header, ns[n].records, true)];
    }
  }

  /** How many group children the entries hold in all. */
  function ChildCount(entries: seq<ListEntry>): nat {
    if entries == [] then 0
    else ChildCount(entries[..|entries| - 1]) + |entries[|entries| - 1].Members()|
  }

  /** The tree has one row per top-level entry and one per child. */
  lemma {:induction false} TreeRowsLength(entries: seq<ListEntry>, indent: string)
    ensures |TreeRows(entries, indent)| == |entries| + ChildCount(entries)
  {
    if entries != [] {
      TreeRowsLength(entries[..|entries| - 1], indent);
    }
  }

  /** The rows of a prefix of the entries are a prefix of the rows. */
  lemma {:induction false} TreeRowsPrefix(entries: seq<ListEntry>, k: nat, indent: string)
    requires k <= |entries|
    ensures TreeRows(entries[..k], indent) <= TreeRows(entries, indent)
    decreases |entries|
  {
    if k < |entries| {
      var init := entries[..|entries| - 1];
      assert init[..k] == entries[..k];
      TreeRowsPrefix(init, k, indent);
    } else {
      assert entries[..k] == entries;
    }
  }

  /** Where top-level entry `i`'s block sits among the rows. */
  function TopPosition(entries: seq<ListEntry>, i: nat): nat
    requires i <= |entries|
  {
    i + ChildCount(entries[..i])
  }

  /** Top-level entry `i`'s rows sit at `TopPosition(entries, i)`. */
  lemma TreeRowsWindow(entries: seq<ListEntry>, indent: string, i: nat)
    requires i < |entries|
    ensures var pre := TreeRows(entries[..i], indent);
            && |pre| == TopPosition(entries, i)
            && pre + EntryRows(entries[i], i, indent) <= TreeRows(entries, indent)
  {
    TreeRowsLength(entries[..i], indent);
    TreeRowsSnoc(entries, i, indent);
    TreeRowsPrefix(entries, i + 1, indent);
  }

  /** Layout of the tree dump, top-level blocks: entry i's block comes
      after the blocks of the entries before it and of their children, has
      index `i` at the given indent and prints its parent, and is followed by
      one row per child of entry i. */
  lemma TreeRowsTop(entries: seq<ListEntry>, indent: string, i: nat)
    requires i < |entries|
    ensures var rows := TreeRows(entries, indent);
            var p := TopPosition(entries, i);
            && p + |entries[i].Members()| < |rows|
            && rows[p] == Row(Top(i), indent, entries[i].Head(), entries[i].Representative().records, true)
  {
    var e := entries[i];
    var rows := TreeRows(entries, indent);
    TreeRowsWindow(entries, indent, i);
    assert |EntryRows(e, i, indent)| == 1 + |e.Members()|;
    PrefixAt(TreeRows(entries[..i], indent), EntryRows(e, i, indent), rows, 0);
  }

  /** Layout of the tree dump, children: child j of entry i sits `j + 1`
      rows after its group's block, with index `i.j`, two spaces further in,
      and prints its parent. */
  lemma TreeRowsChild(entries: seq<ListEntry>, indent: string, i: nat, j: nat)
    requires i < |entries| && j < |entries[i].Members()|
    ensures var p := TopPosition(entries, i);
            && p + 1 + j < |TreeRows(entries, indent)|
            && TreeRows(entries, indent)[p + 1 + j]
               == Row(Child(i, j), indent + INDENT, entries[i].Members()[j].header, entries[i].Members()[j].records, true)
  {
    var e := entries[i];
    TreeRowsWindow(entries, indent, i);
    PrefixAt(TreeRows(entries[..i], indent), EntryRows(e, i, indent), TreeRows(entries, indent), 1 + j);
    EntryRowsChild(e, i, indent, j);
  }

  /** An entry's own rows: its block first, then child j at offset `j + 1`. */
  lemma EntryRowsChild(e: ListEntry, i: nat, indent: string, j: nat)
    requires j < |e.Members()|
    ensures |EntryRows(e, i, indent)| == 1 + |e.Members()|
    ensures EntryRows(e, i, indent)[1 + j]
            == Row(Child(i, j), indent + INDENT, e.Members()[j].header, e.Members()[j].records, true)
  {
    ChildRowsAt(i, e.Members(), indent);
  }

  /** Indexing into a prefix of the form `a + b`. */
  lemma PrefixAt<T>(a: seq<T>, b: seq<T>, c: seq<T>, k: nat)
    requires a + b <= c && k < |b|
    ensures |a| + k < |c| && c[|a| + k] == b[k]
  {
    assert c[|a| + k] == (a + b)[|a| + k];
  }

  /** Every row of the tree dump prints the parent. */
  lemma {:induction false} TreeRowsWithParent(entries: seq<ListEntry>, indent: string)
    ensures forall k :: 0 <= k < |TreeRows(entries, indent)| ==> TreeRows(entries, indent)[k].withParent
  {
    if entries != [] {
      var n := |entries| - 1;
      TreeRowsWithParent(entries[..n], indent);
      ChildRowsAt(n, entries[n].Members(), indent);
    }
  }

  /** A block differs between the two dumps only by the parent fragment,
      which the tree dump inserts right after the key. */
  lemma ParentFragmentPlacement(h: Header, rk: RecordKeeping, index: string, indent: string, k: bool)
    ensures var head := BlockHead(h, index, indent);
            var plain := EntryBlock(h, rk, index, indent, false, k);
            && head <= plain
            && EntryBlock(h, rk, index, indent, true, k) == head + ParentFragment(h) + plain[|head|..]
  {
    var head := BlockHead(h, index, indent);
    var tail := BlockTail(h, rk, indent, k);
    assert head + "" == head;
    DropPrefix(head, tail);
  }

  lemma DropPrefix<T>(a: seq<T>, b: seq<T>)
    ensures a <= a + b && (a + b)[|a|..] == b
  {
  }

  /** The rendering of one row on its own. */
  lemma RenderSingleRow(row: Row, k: bool)
    ensures RenderRows([row], k) == RenderRow(row, k)
  {
    RenderRowsSnoc([], row, k);
    assert [] + [row] == [row];
  }

  /** One more child appends that child's block. */
  lemma ChildStep(i: nat, children: seq<Notification>, n: nat, indent: string, k: bool)
    requires n < |children|
    ensures RenderRows(ChildRows(i, children[..n + 1], indent), k)
            == RenderRows(ChildRows(i, children[..n], indent), k)
               + EntryBlock(children[n].header, children[n].records, NatToString(i) + "." + NatToString(n),
                            indent + INDENT, true, k)
  {
    assert children[..n + 1][..n] == children[..n];
    RenderRowsSnoc(ChildRows(i, children[..n], indent),
                   Row(Child(i, n), indent + INDENT, children[n].header, children[n].records, true), k);
  }

  /** One more notification appends its block, without parent. */
  lemma ListStep(entries: seq<Notification>, n: nat, indent: string, k: bool)
    requires n < |entries|
    ensures RenderRows(ListRows(entries[..n + 1], indent), k)
            == RenderRows(ListRows(entries[..n], indent), k)
               + EntryBlock(entries[n].header, entries[n].records, NatToString(n), indent, false, k)
  {
    assert entries[..n + 1][..n] == entries[..n];
    RenderRowsSnoc(ListRows(entries[..n], indent), Row(Top(n), indent, entries[n].header, entries[n].records, false), k);
  }

  lemma AppendAssoc<T>(a: seq<T>, b: seq<T>, c: seq<T>)
    ensures a + b + c == a + (b + c)
  {
  }

  /** The rows of one more top-level entry follow those before it. */
  lemma TreeRowsSnoc(entries: seq<ListEntry>, n: nat, indent: string)
    requires n < |entries|
    ensures TreeRows(entries[..n + 1], indent)
            == TreeRows(entries[..n], indent)
               + ([Row(Top(n), indent, entries[n].Head(), entries[n].Representative().records, true)]
                  + ChildRows(n, entries[n].Members(), indent))
  {
    assert entries[..n + 1][..n] == entries[..n];
  }

  /** One more top-level entry appends its block, then its children's. */
  lemma TreeStep(entries: seq<ListEntry>, n: nat, indent: string, k: bool)
    requires n < |entries|
    ensures RenderRows(TreeRows(entries[..n + 1], indent), k)
            == RenderRows(TreeRows(entries[..n], indent), k)
               + EntryBlock(entries[n].Head(), entries[n].Representative().records, NatToString(n), indent, true, k)
               + RenderRows(ChildRows(n, entries[n].Members(), indent), k)
  {
    var e := entries[n];
    var before := TreeRows(entries[..n], indent);
    var top := Row(Top(n), indent, e.Head(), e.Representative().records, true);
    var children := ChildRows(n, e.Members(), indent);
    TreeRowsSnoc(entries, n, indent);
    RenderRowsAppend(before, [top] + children, k);
    RenderRowsAppend([top], children, k);
    RenderSingleRow(top, k);
    AppendAssoc(RenderRows(before, k), RenderRow(top, k), RenderRows(children, k));
  }

  /** The inner loop of `dumpTree`: the blocks of group `i`'s children, in
      order. */
  method DumpChildren(i: nat, children: seq<Notification>, includeRecordKeeping: bool, indent: string)
    returns (sb: string)
    ensures sb == RenderRows(ChildRows(i, children, indent), includeRecordKeeping)
  {
    sb := "";
    var childEntryIndent := indent + INDENT;
    var childIndex := 0;
    while childIndex < |children|
      invariant 0 <= childIndex <= |children|
      invariant sb == RenderRows(ChildRows(i, children[..childIndex], indent), includeRecordKeeping)
    {
      ChildStep(i, children, childIndex, indent, includeRecordKeeping);
      sb := sb + EntryBlock(children[childIndex].header, children[childIndex].records,
                            NatToString(i) + "." + NatToString(childIndex), childEntryIndent,
                            true, includeRecordKeeping);
      childIndex := childIndex + 1;
    }
    assert children[..childIndex] == children;
  }

  /** `dumpTree`: each top-level entry, then, for a group, its children. */
  method DumpTree(entries: seq<ListEntry>, includeRecordKeeping: bool, indent: string) returns (sb: string)
    ensures sb == RenderRows(TreeRows(entries, indent), includeRecordKeeping)
    ensures entries == [] ==> sb == ""
  {
    sb := "";
    var topEntryIndex := 0;
    while topEntryIndex < |entries|
      invariant 0 <= topEntryIndex <= |entries|
      invariant sb == RenderRows(TreeRows(entries[..topEntryIndex], indent), includeRecordKeeping)
    {
      var entry := entries[topEntryIndex];
      TreeStep(entries, topEntryIndex, indent, includeRecordKeeping);
      sb := sb + EntryBlock(entry.Head(), entry.Representative().records, NatToString(topEntryIndex), indent,
                            true, includeRecordKeeping);
      var childBlocks := DumpChildren(topEntryIndex, entry.Members(), includeRecordKeeping, indent);
      sb := sb + childBlocks;
      topEntryIndex := topEntryIndex + 1;
    }
    assert entries[..topEntryIndex] == entries;
  }

  /** `dumpList`: one block per notification, in order, without parent. */
  method DumpList(entries: seq<Notification>, includeRecordKeeping: bool, indent: string) returns (sb: string)
    ensures sb == RenderRows(ListRows(entries, indent), includeRecordKeeping)
    ensures entries == [] ==> sb == ""
  {
    sb := "";
    var j := 0;
    while j < |entries|
      invariant 0 <= j <= |entries|
      invariant sb == RenderRows(ListRows(entries[..j], indent), includeRecordKeeping)
    {
      ListStep(entries, j, indent, includeRecordKeeping);
      sb := sb + EntryBlock(entries[j].header, entries[j].records, NatToString(j), indent, false, includeRecordKeeping);
      j := j + 1;
    }
    assert entries[..j] == entries;
  }
}

=== FILE: traffic_config.dfy ===
/** The configuration of the network-traffic indicator: its constants, the
    traffic and layout modes, and the snapshot of settings each tick reads. */
module TrafficConfig {

  /** Nominal refresh period, in milliseconds. */
  const INTERVAL: int := 1500

  /** A tick that arrives less than this many milliseconds after the last
      update is redundant. `INTERVAL * .95` is exactly 1425.0 as a double, and
      a `long` elapsed time is below it iff it is below 1425. */
  const SKIP_BELOW: int := 1425

  /** Message code of the periodic refresh runnable. */
  const REFRESH_CODE: int := 0

  /** Message code of the tick a settings reload forces. */
  const FORCED_CODE: int := 1

  /** What the indicator shows. Setting codes outside 0..4 are `Unknown`: no
      branch of NetworkTraffic.java names them, so each falls through to its `else`. */
  datatype Mode = Both | Up | Down | Combined | Dynamic | Unknown

  /** The setting code of a named mode. */
  function ModeCode(m: Mode): int
    requires m != Unknown
  {
    match m
    case Both => 0
    case Up => 1
    case Down => 2
    case Combined => 3
    case Dynamic => 4
  }

  /** Decodes the traffic-type setting. */
  function ModeOf(code: int): (m: Mode)
    ensures m == Unknown <==> !(0 <= code <= 4)
    ensures m != Unknown ==> ModeCode(m) == code
  {
    if code == 0 then Both
    else if code == 1 then Up
    else if code == 2 then Down
    else if code == 3 then Combined
    else if code == 4 then Dynamic
    else Unknown
  }

  /** Layout setting: 0 is the single-line 1024-based ladder; every other
      value selects the compact two-line ladder. */
  datatype Layout = SingleLine | TwoLine

  function LayoutOf(code: int): (l: Layout)
    ensures l == SingleLine <==> code == 0
  {
    if code == 0 then SingleLine else TwoLine
  }

  /** The settings snapshot a tick works with. */
  datatype Config = Config(
    enabled: bool,
    mode: Mode,
    layout: Layout,
    autoHideThreshold: int,  // KiB/s
    showArrow: bool,
    inHeaderView: bool)

  /** The settings keys the indicator observes. */
  datatype SettingKey =
    | TrafficState | TrafficType | TrafficLayout | AutoHideThreshold
    | TrafficArrow | ViewLocation

  /** An integer setting, or `def` when the store does not hold the key. */
  function GetInt(store: map<SettingKey, int>, key: SettingKey, def: int): (v: int)
    ensures key in store ==> v == store[key]
    ensures key !in store ==> v == def
  {
    if key in store then store[key] else def
  }

  /** Reads the whole configuration, applying the defaults NetworkTraffic.java uses. */
  function ReadConfig(store: map<SettingKey, int>): (c: Config)
    ensures c.enabled <==> TrafficState in store && store[TrafficState] == 1
    ensures c.mode == (if TrafficType in store then ModeOf(store[TrafficType]) else Both)
    ensures c.layout == TwoLine <==> TrafficLayout in store && store[TrafficLayout] != 0
    ensures c.autoHideThreshold == (if AutoHideThreshold in store then store[AutoHideThreshold] else 0)
    ensures c.showArrow <==> TrafficArrow !in store || store[TrafficArrow] == 1
    ensures c.inHeaderView <==> ViewLocation in store && store[ViewLocation] == 1
  {
    Config(
      GetInt(store, TrafficState, 0) == 1,
      ModeOf(GetInt(store, TrafficType, 0)),
      LayoutOf(GetInt(store, TrafficLayout, 0)),
      GetInt(store, AutoHideThreshold, 0),
      GetInt(store, TrafficArrow, 1) == 1,
      GetInt(store, ViewLocation, 0) == 1)
  }
}

=== FILE: traffic_format.dfy ===
/** Rate computation and the two unit ladders that turn a rate into label
    text. A label is a sequence of fragments: literal text, and numbers that
    `DecimalFormat` renders; the digits of those numbers are not modelled,
    only which value, unit and pattern each one uses. */
module TrafficFormat {
  import opened JavaArith
  import opened DecimalText
  import opened TrafficConfig

  const KB: int := 1024
  const MB: int := KB * KB
  const GB: int := MB * KB
  const SYMBOL: string := "B/s"

  /** The binary unit a rate is shown in. */
  datatype Scale = Bytes | Kibi | Mebi | Gibi {
    function Divisor(): int {
      match this
      case Bytes => 1
      case Kibi => KB
      case Mebi => MB
      case Gibi => GB
    }

    function Prefix(): string {
      match this
      case Bytes => ""
      case Kibi => "Ki"
      case Mebi => "Mi"
      case Gibi => "Gi"
    }

    /** Position on the ladder, smallest unit first. */
    function Rank(): nat {
      match this
      case Bytes => 0
      case Kibi => 1
      case Mebi => 2
      case Gibi => 3
    }
  }

  /** The `DecimalFormat` pattern a number is rendered with. */
  datatype Pattern =
    | SimplePattern         // "##0.#", at most 3 integer and 1 fraction digits
    | ThreeWhole            // "000"
    | TwoWholeOneFraction   // "00.0"
    | OneWholeTwoFractions  // "0.00"
  {
    function Text(): string {
      match this
      case SimplePattern => "##0.#"
      case ThreeWhole => "000"
      case TwoWholeOneFraction => "00.0"
      case OneWholeTwoFractions => "0.00"
    }

    /** Integer digits the pattern prints (at most, for `SimplePattern`). */
    function WholeDigits(): nat {
      match this
      case SimplePattern => 3
      case ThreeWhole => 3
      case TwoWholeOneFraction => 2
      case OneWholeTwoFractions => 1
    }

    function FractionDigits(): nat {
      match this
      case SimplePattern => 1
      case ThreeWhole => 0
      case TwoWholeOneFraction => 1
      case OneWholeTwoFractions => 2
    }
  }

  /** A piece of label text. `Number(speed, scale, p)` stands for
      `speed / scale.Divisor()` rendered through pattern `p`. */
  datatype Fragment = Literal(s: string) | Number(speed: int, scale: Scale, pattern: Pattern)

  type Text = seq<Fragment>

  /** The rates a label shows, in reading order. */
  function Rates(t: Text): (rs: seq<int>)
    ensures |rs| <= |t|
  {
    if t == [] then []
    else (match t[0] case Number(v, _, _) => [v] case Literal(_) => []) + Rates(t[1..])
  }

  lemma {:induction false} RatesAppend(a: Text, b: Text)
    ensures Rates(a + b) == Rates(a) + Rates(b)
  {
    if a == [] {
      assert a + b == b;
    } else {
      assert (a + b)[1..] == a[1..] + b;
      RatesAppend(a[1..], b);
    }
  }

  /** Bytes per second for `data` bytes over `timeDelta` milliseconds,
      truncated toward zero as the `(long)` cast does. The Java code divides in
      single-precision float; this is the exact quotient. */
  function Speed(data: int, timeDelta: int): (speed: int)
    requires timeDelta >= 1
    ensures data >= 0 ==> 0 <= speed && speed * timeDelta <= data * 1000 < (speed + 1) * timeDelta
    ensures data < 0 ==> speed <= 0 && (speed - 1) * timeDelta < data * 1000 <= speed * timeDelta
  {
    TruncDiv(data * 1000, timeDelta)
  }

  /** More bytes over the same time never give a lower rate. */
  lemma SpeedMonotone(d1: int, d2: int, timeDelta: int)
    requires timeDelta >= 1 && d1 <= d2
    ensures Speed(d1, timeDelta) <= Speed(d2, timeDelta)
  {
    TruncDivMonotone(d1 * 1000, d2 * 1000, timeDelta);
  }

  /** `sc` is the unit the single-line ladder should pick: the largest unit
      not above the rate, so the scaled value lies in [1, 1024) except at the
      two ends of the ladder. */
  ghost predicate FitsSimple(speed: int, sc: Scale) {
    && (sc == Bytes || sc.Divisor() <= speed)
    && (sc == Gibi || speed < sc.Divisor() * KB)
  }

  /** The unit of the single-line (1024-based) ladder. */
  function SimpleScale(speed: int): (sc: Scale)
    ensures FitsSimple(speed, sc)
  {
    if speed < KB then Bytes
    else if speed < MB then Kibi
    else if speed < GB then Mebi
    else Gibi
  }

  /** Exactly one unit fits a rate, so `FitsSimple` defines the ladder. */
  lemma SimpleScaleUnique(speed: int, sc: Scale)
    requires FitsSimple(speed, sc)
    ensures sc == SimpleScale(speed)
  {
  }

  /** The chosen unit never decreases as the rate grows. */
  lemma SimpleScaleMonotone(a: int, b: int)
    requires a <= b
    ensures SimpleScale(a).Rank() <= SimpleScale(b).Rank()
  {
  }

  /** Single-line text: the number, then the unit and "B/s". */
  function SimpleText(speed: int): (t: Text)
    ensures Rates(t) == [speed]
    ensures |t| == 2
    ensures t[0] == Number(speed, SimpleScale(speed), SimplePattern)
    ensures t[1] == Literal(SimpleScale(speed).Prefix() + SYMBOL)
  {
    var sc := SimpleScale(speed);
    [Number(speed, sc, SimplePattern), Literal(sc.Prefix() + SYMBOL)]
  }

  /** What the compact ladder promises for a non-negative rate: a binary
      prefix (never bare bytes) and a pattern whose integer digits match the
      scaled value, so that every label is three digits wide except in the
      1000..1023 stretch (`CompactWideStretch`). */
  ghost predicate FitsCompact(speed: int, sc: Scale, p: Pattern)
    requires speed >= 0
  {
    var v := speed / sc.Divisor();
    && sc != Bytes
    && match p
       case SimplePattern => false
       case ThreeWhole => sc != Gibi && 100 <= v < KB
       case TwoWholeOneFraction => sc != Gibi && 10 <= v < 100
       case OneWholeTwoFractions => (sc == Kibi || 1 <= v) && (sc == Gibi || v < 10)
  }

  /** The unit and pattern of the compact two-line ladder. Rates below
      10 KiB/s, negative ones included, use "0.00" KiB. */
  function CompactStep(speed: int): (step: (Scale, Pattern))
    ensures step.0 != Bytes && step.1 != SimplePattern
    ensures step.1.WholeDigits() + step.1.FractionDigits() == 3
    ensures speed >= 0 ==> FitsCompact(speed, step.0, step.1)
    ensures speed < 0 ==> step == (Kibi, OneWholeTwoFractions)
  {
    if speed >= GB then (Gibi, OneWholeTwoFractions)
    else if speed >= 100 * MB then (Mebi, ThreeWhole)
    else if speed >= 10 * MB then (Mebi, TwoWholeOneFraction)
    else if speed >= MB then (Mebi, OneWholeTwoFractions)
    else if speed >= 100 * KB then (Kibi, ThreeWhole)
    else if speed >= 10 * KB then (Kibi, TwoWholeOneFraction)
    else (Kibi, OneWholeTwoFractions)
  }

  /** Only one unit and pattern fit a rate, so `FitsCompact` defines the
      compact ladder. */
  lemma CompactStepUnique(speed: int, sc: Scale, p: Pattern)
    requires speed >= 0 && FitsCompact(speed, sc, p)
    ensures (sc, p) == CompactStep(speed)
  {
    var v := speed / sc.Divisor();
    assert v * sc.Divisor() <= speed < (v + 1) * sc.Divisor();
  }

  lemma CompactStepMonotone(a: int, b: int)
    requires a <= b
    ensures CompactStep(a).0.Rank() <= CompactStep(b).0.Rank()
  {
  }

  /** Below 10 GiB/s, and away from the 1000..1023 stretch just under each
      unit boundary, the whole part of the scaled value (before
      `DecimalFormat` rounds it) has exactly as many digits as the pattern
      prints. */
  lemma CompactWholeWidth(speed: int)
    requires 0 <= speed < 10 * GB
    requires speed / CompactStep(speed).0.Divisor() < 1000
    ensures |NatToString(speed / CompactStep(speed).0.Divisor())| == CompactStep(speed).1.WholeDigits()
  {
    var v := speed / CompactStep(speed).0.Divisor();
    if v >= 10 {
      assert NatToString(v) == NatToString(v / 10) + [DigitChar(v % 10)];
      if v >= 100 {
        assert NatToString(v / 10) == NatToString(v / 100) + [DigitChar(v / 10 % 10)];
      }
    }
  }

  /** The compact ladder keeps a unit up to 1023 of it, so from 1000 to 1023
      KiB/s (and MiB/s) the three-digit pattern "000" is given a four-digit
      value. */
  lemma CompactWideStretch(speed: int)
    requires 1000 * KB <= speed < MB || 1000 * MB <= speed < GB
    ensures CompactStep(speed).1 == ThreeWhole
    ensures |NatToString(speed / CompactStep(speed).0.Divisor())| == 4
  {
    if speed < MB {
      assert CompactStep(speed) == (Kibi, ThreeWhole);
      FourDigits(speed / KB);
    } else {
      assert CompactStep(speed) == (Mebi, ThreeWhole);
      FourDigits(speed / MB);
    }
  }

  lemma FourDigits(v: nat)
    requires 1000 <= v < 10000
    ensures |NatToString(v)| == 4
  {
    assert NatToString(v) == NatToString(v / 10) + [DigitChar(v % 10)];
    assert NatToString(v / 10) == NatToString(v / 100) + [DigitChar(v / 10 % 10)];
    assert NatToString(v / 100) == NatToString(v / 1000) + [DigitChar(v / 100 % 10)];
  }

  /** Two-line text: the number, a line break, then the unit and "B/s". */
  function CompactText(speed: int): (t: Text)
    ensures Rates(t) == [speed]
    ensures |t| == 3
    ensures t[0] == Number(speed, CompactStep(speed).0, CompactStep(speed).1)
    ensures t[1] == Literal("\n") && t[2] == Literal(CompactStep(speed).0.Prefix() + SYMBOL)
    ensures t[2] != Literal(SYMBOL)
  {
    var (sc, p) := CompactStep(speed);
    var t := [Number(speed, sc, p), Literal("\n"), Literal(sc.Prefix() + SYMBOL)];
    assert Rates(t[2..]) == [] by { assert t[2..][1..] == []; }
    assert t[1..][1..] == t[2..];
    t
  }

  /** `formatOutput`: the single-line ladder when the layout asks for it or
      the mode is BOTH, the compact ladder otherwise. */
  function FormatOutput(layout: Layout, mode: Mode, timeDelta: int, data: int): (t: Text)
    requires timeDelta >= 1
    ensures Rates(t) == [Speed(data, timeDelta)]
    ensures layout == SingleLine || mode == Both ==> t == SimpleText(Speed(data, timeDelta))
    ensures layout == TwoLine && mode != Both ==> t == CompactText(Speed(data, timeDelta))
  {
    var speed := Speed(data, timeDelta);
    if layout == SingleLine || mode == Both then SimpleText(speed) else CompactText(speed)
  }
}

=== FILE: traffic_properties.dfy ===
/** Properties of the traffic indicator that relate several calls: the
    invariant every run keeps, the auto-hide policy's monotonicity, the
    zero-rate forced tick, and the absence of memory in the arrow flags. */
module TrafficProperties {
  import opened JavaArith
  import opened TrafficConfig
  import opened TrafficFormat
  import opened TrafficTick

  /** Number of refresh runnables in a handler queue. */
  function RefreshCount(q: seq<Post>): nat {
    if q == [] then 0
    else RefreshCount(q[..|q| - 1]) + (if q[|q| - 1].Refresh? then 1 else 0)
  }

  /** What holds of the indicator between events: a hidden view has no text,
      a shown view only follows a tick that left traffic visible, and at most
      one refresh, always with the nominal delay, is ever queued. */
  ghost predicate Consistent(s: State) {
    && (!s.viewVisible ==> s.text == [])
    && (s.viewVisible ==> s.trafficVisible)
    && RefreshCount(s.pending) <= 1
    && forall i :: 0 <= i < |s.pending| && s.pending[i].Refresh? ==> s.pending[i].delayMs == INTERVAL
  }

  /** Something the indicator reacts to: a handler message, or a settings
      reload (settings change, attach, or connectivity broadcast). */
  datatype Event =
    | Handle(cfg: Config, reading: Reading)
    | Reload(cfg: Config, attached: bool, rxTotal: int, now: int)

  function Step(s: State, e: Event): State {
    match e
    case Handle(cfg, r) => Tick(s, cfg, r)
    case Reload(cfg, attached, rx, now) => UpdateSettings(s, cfg, attached, rx, now)
  }

  function Run(s: State, events: seq<Event>): State
    decreases |events|
  {
    if events == [] then s else Run(Step(s, events[0]), events[1..])
  }

  /** The state the constructor leaves: the field initialisers with the
      framework's view visibility, then one settings reload while the view is
      not yet attached (the counter and clock arguments are then unused). */
  function Constructed(viewVisible: bool, cfg: Config): State {
    UpdateSettings(Initial.(viewVisible := viewVisible), cfg, false, 0, 0)
  }

  /** Whatever visibility the framework gives the new view, the constructor's
      reload leaves a state that satisfies the invariant, with the view
      hidden and nothing queued. */
  lemma InitialConsistent(viewVisible: bool, cfg: Config)
    ensures Consistent(Constructed(viewVisible, cfg))
    ensures !Constructed(viewVisible, cfg).viewVisible
    ensures Constructed(viewVisible, cfg).pending == []
  {
  }

  lemma TickPreservesConsistent(s: State, cfg: Config, r: Reading)
    requires Consistent(s)
    ensures Consistent(Tick(s, cfg, r))
  {
    var q := [Refresh(INTERVAL)];
    assert q[..0] == [];
  }

  lemma SettingsPreservesConsistent(s: State, cfg: Config, attached: bool, rx: int, now: int)
    requires Consistent(s)
    ensures Consistent(UpdateSettings(s, cfg, attached, rx, now))
  {
    var s' := UpdateSettings(s, cfg, attached, rx, now);
    if cfg.enabled && attached {
      var q := s.pending + [Message(FORCED_CODE)];
      assert q[..|q| - 1] == s.pending;
      assert s'.pending == q;
    }
  }

  /** Every sequence of ticks and reloads keeps the invariant. */
  lemma {:induction false} RunConsistent(s: State, events: seq<Event>)
    requires Consistent(s)
    ensures Consistent(Run(s, events))
    decreases |events|
  {
    if events != [] {
      match events[0] {
        case Handle(cfg, r) => TickPreservesConsistent(s, cfg, r);
        case Reload(cfg, attached, rx, now) => SettingsPreservesConsistent(s, cfg, attached, rx, now);
      }
      RunConsistent(Step(s, events[0]), events[1..]);
    }
  }

  /** Dividing by `Long.MAX_VALUE` gives a zero rate for any delta whose
      rate numerator fits in a `long`. */
  lemma SpeedOverLongMax(data: int)
    requires -LONG_MAX < data * 1000 < LONG_MAX
    ensures Speed(data, LONG_MAX) == 0
  {
    var v := Speed(data, LONG_MAX);
    if data >= 0 {
      MulCancel(v, 1, LONG_MAX);
    } else {
      MulCancel(-1, v, LONG_MAX);
    }
  }

  function Abs(x: int): nat {
    if x < 0 then -x else x
  }

  /** A forced tick less than 1 ms after the last update shows only zero
      rates, and is shown exactly when there is a network and the threshold
      does not exceed zero. */
  lemma ForcedTickZeroRates(s: State, cfg: Config, r: Reading)
    requires r.what == FORCED_CODE && r.clockAtEntry - s.lastUpdateTime < 1
    requires (Abs(r.rxTotal - s.totalRxBytes) + Abs(r.txTotal - s.totalTxBytes)) * 1000 < LONG_MAX
    ensures var s' := Tick(s, cfg, r);
            && (s'.trafficVisible <==> r.connected && cfg.autoHideThreshold <= 0)
            && forall i :: 0 <= i < |Rates(s'.text)| ==> Rates(s'.text)[i] == 0
  {
    var rx, tx := r.rxTotal - s.totalRxBytes, r.txTotal - s.totalTxBytes;
    SpeedOverLongMax(rx);
    SpeedOverLongMax(tx);
    SpeedOverLongMax(rx + tx);
    assert RateDelta(r.clockAtEntry - s.lastUpdateTime, r.what) == LONG_MAX;
    assert KiBRate(rx, LONG_MAX) == 0 && KiBRate(tx, LONG_MAX) == 0;
  }

  /** The reload's forced tick: right after an enabled, attached reload, the
      queued forced tick at the same clock reading divides by
      `Long.MAX_VALUE`, shows zero rates and leaves exactly one refresh
      queued. */
  lemma ReloadThenForcedTick(s: State, cfg: Config, rx0: int, now: int, later: int, rx: int, tx: int, connected: bool)
    requires cfg.enabled
    requires (Abs(rx - rx0) + Abs(tx - s.totalTxBytes)) * 1000 < LONG_MAX
    ensures var s1 := UpdateSettings(s, cfg, true, rx0, now);
            var s2 := Tick(s1, cfg, Reading(FORCED_CODE, now, later, rx, tx, connected));
            && s1.pending == s.pending + [Message(FORCED_CODE)]
            && s2.pending == [Refresh(INTERVAL)]
            && s2.totalRxBytes == rx && s2.totalTxBytes == tx && s2.lastUpdateTime == later
            && forall i :: 0 <= i < |Rates(s2.text)| ==> Rates(s2.text)[i] == 0
  {
    var s1 := UpdateSettings(s, cfg, true, rx0, now);
    ForcedTickZeroRates(s1, cfg, Reading(FORCED_CODE, now, later, rx, tx, connected));
  }

  /** Raising the threshold never brings a hidden indicator back. */
  lemma ShouldHideThresholdMonotone(mode: Mode, t1: int, t2: int, rx: int, tx: int, dt: int, connected: bool)
    requires dt >= 1 && t1 <= t2
    requires ShouldHide(mode, t1, rx, tx, dt, connected)
    ensures ShouldHide(mode, t2, rx, tx, dt, connected)
  {
  }

  lemma KiBRateMonotone(d1: int, d2: int, dt: int)
    requires dt >= 1 && d1 <= d2
    ensures KiBRate(d1, dt) <= KiBRate(d2, dt)
  {
    SpeedMonotone(d1, d2, dt);
    TruncDivMonotone(Speed(d1, dt), Speed(d2, dt), KB);
  }

  /** More traffic in either direction never hides a shown indicator. */
  lemma ShouldHideTrafficAntitone(mode: Mode, t: int, rx1: int, tx1: int, rx2: int, tx2: int, dt: int, connected: bool)
    requires dt >= 1 && rx1 <= rx2 && tx1 <= tx2
    requires ShouldHide(mode, t, rx2, tx2, dt, connected)
    ensures ShouldHide(mode, t, rx1, tx1, dt, connected)
  {
    KiBRateMonotone(rx1, rx2, dt);
    KiBRateMonotone(tx1, tx2, dt);
  }

  /** The aggregate modes hide exactly when both single-direction modes
      would; UP looks only at tx and DOWN only at rx. */
  lemma ShouldHideByDirection(mode: Mode, t: int, rx: int, tx: int, rx': int, tx': int, dt: int, connected: bool)
    requires dt >= 1
    ensures mode !in {Up, Down} ==>
              (ShouldHide(mode, t, rx, tx, dt, connected)
               <==> ShouldHide(Up, t, rx, tx, dt, connected) && ShouldHide(Down, t, rx, tx, dt, connected))
    ensures ShouldHide(Up, t, rx, tx, dt, connected) == ShouldHide(Up, t, rx', tx, dt, connected)
    ensures ShouldHide(Down, t, rx, tx, dt, connected) == ShouldHide(Down, t, rx, tx', dt, connected)
    ensures !connected ==> ShouldHide(mode, t, rx, tx, dt, connected)
  {
  }

  /** The arrow flags carry no memory across ticks: two states that differ
      only in their previous flags, text or visibility reach the same flags,
      text and visibility on the same tick. */
  lemma TickFlagsMemoryless(s1: State, s2: State, cfg: Config, r: Reading)
    requires s1.totalRxBytes == s2.totalRxBytes && s1.totalTxBytes == s2.totalTxBytes
    requires s1.lastUpdateTime == s2.lastUpdateTime
    requires !Skipped(r.clockAtEntry - s1.lastUpdateTime, r.what)
    ensures var t1, t2 := Tick(s1, cfg, r), Tick(s2, cfg, r);
            && t1.iBytes == t2.iBytes && t1.oBytes == t2.oBytes
            && t1.text == t2.text && t1.trafficVisible == t2.trafficVisible
            && t1.viewVisible == t2.viewVisible
            && (cfg.showArrow ==> t1.icon == t2.icon)
  {
    assert BaselineOf(s1) == BaselineOf(s2);
  }

  /** A negative delta (a counter that went backwards) is rounded toward
      zero: with UP and threshold 0, -500 B/s rounds to 0 KiB/s and shows,
      while -2048 B/s is -2 KiB/s and hides. */
  lemma NegativeTxScenario()
    ensures !ShouldHide(Up, 0, 0, -500, 1000, true)
    ensures ShouldHide(Up, 0, 0, -2048, 1000, true)
    ensures ShouldHide(Up, 1, 0, -2048, 1000, true)
  {
    assert KiBRate(-500, 1000) == 0;
    assert KiBRate(-2048, 1000) == -2;
  }

  /** A DOWN indicator with threshold 0 that sees 2048 bytes received over
      1000 ms (on a forced tick) shows "2KiB/s" on one line. */
  lemma DownScenario()
    ensures var cfg := Config(true, Down, SingleLine, 0, true, true);
            var s := Tick(Initial, cfg, Reading(FORCED_CODE, 1000, 1000, 2048, 0, true));
            && s.viewVisible
            && s.text == [Number(2048, Kibi, SimplePattern), Literal("KiB/s")]
            && s.icon == DownArrow
  {
    var cfg := Config(true, Down, SingleLine, 0, true, true);
    var r := Reading(FORCED_CODE, 1000, 1000, 2048, 0, true);
    assert !Skipped(1000, FORCED_CODE) && RateDelta(1000, FORCED_CODE) == 1000;
    assert Speed(2048, 1000) == 2048;
    assert Speed(0, 1000) == 0;
    assert KiBRate(2048, 1000) == 2;
    assert !ShouldHide(Down, 0, 2048, 0, 1000, true);
    assert SimpleScale(2048) == Kibi;
    assert WrapInt32(0 * KB) == 0;
    assert ShownText(cfg, 2048, 0, 1000) == SimpleText(2048);
    assert Kibi.Prefix() + SYMBOL == "KiB/s";
    assert SimpleText(2048) == [Number(2048, Kibi, SimplePattern), Literal("KiB/s")];
    assert Applied(BaselineOf(Initial), cfg, r) == Decision([Number(2048, Kibi, SimplePattern), Literal("KiB/s")], true, false, true);
  }
}

=== FILE: traffic_tick.dfy ===
/** The network-traffic indicator as pure transitions: one handler tick, the
    visibility and icon updates it ends with, and the settings reload that
    re-arms it. The view's mutable fields and the handler's message queue are
    one immutable `State` record threaded through these functions. */
module TrafficTick {
  import opened JavaArith
  import opened TrafficConfig
  import opened TrafficFormat

  /** The compound drawable beside the label. */
  datatype Icon = NoIcon | Plain | UpArrow | DownArrow | UpDownArrows

  /** An item waiting in the handler's queue: the refresh runnable posted
      with a delay, or an immediate message. */
  datatype Post = Refresh(delayMs: int) | Message(what: int)

  datatype State = State(
    totalRxBytes: int,    // rx counter baseline
    totalTxBytes: int,    // tx counter baseline
    lastUpdateTime: int,  // clock reading of the last applied tick, ms
    text: Text,
    trafficVisible: bool,
    iBytes: bool,         // the rx byte delta is at or below the threshold
    oBytes: bool,         // the tx byte delta is at or below the threshold
    viewVisible: bool,
    icon: Icon,
    pending: seq<Post>)

  /** The state the field initialisers give, before the constructor's first
      settings reload: nothing shown, nothing queued. The view's own
      visibility is the framework's, so `TrafficProperties.Constructed` takes
      it as input. */
  const Initial: State := State(0, 0, 0, [], false, false, false, false, NoIcon, [])

  /** What one tick reads from outside: the message code, the clock when the
      handler starts and when it stamps the update, both byte counters and
      whether there is an active network. */
  datatype Reading = Reading(
    what: int,
    clockAtEntry: int,
    clockAtUpdate: int,
    rxTotal: int,
    txTotal: int,
    connected: bool)

  /** A tick too soon after the last one does nothing unless it was forced:
      "too soon" is less than 95% of the refresh interval. */
  function Skipped(timeDelta: int, what: int): (skip: bool)
    ensures skip <==> 100 * timeDelta < 95 * INTERVAL && what != FORCED_CODE
  {
    timeDelta < SKIP_BELOW && what != FORCED_CODE
  }

  /** The elapsed time the rates are computed over: a forced tick less than
      1 ms after the last one divides by `Long.MAX_VALUE` instead of zero. */
  function RateDelta(timeDelta: int, what: int): (dt: int)
    requires !Skipped(timeDelta, what)
    ensures dt >= 1
    ensures timeDelta < 1 ==> dt == LONG_MAX && what == FORCED_CODE
    ensures timeDelta >= 1 ==> dt == timeDelta
  {
    if timeDelta < SKIP_BELOW && timeDelta < 1 then LONG_MAX else timeDelta
  }

  /** The arrow flags compare the raw byte delta, not the rate, with the
      threshold; `threshold * 1024` is computed in 32-bit `int`. */
  function BelowThreshold(data: int, threshold: int): (below: bool)
    ensures INT32_MIN <= threshold * KB < -INT32_MIN ==> (below <==> data <= threshold * KB)
    ensures threshold * KB == -INT32_MIN ==> (below <==> data <= INT32_MIN)
  {
    data <= WrapInt32(threshold * KB)
  }

  /** A rate in whole KiB/s, truncated toward zero as Java's `/` does. The
      two truncations in a row (to B/s, then to KiB/s) amount to one: the
      result is `data * 1000 / (1024 * dt)` truncated toward zero, so rounded
      down for a non-negative delta and up for a negative one. */
  function KiBRate(data: int, dt: int): (kib: int)
    requires dt >= 1
    ensures data >= 0 ==> 0 <= kib && kib * KB * dt <= data * 1000 < (kib + 1) * KB * dt
    ensures data < 0 ==> kib <= 0 && (kib - 1) * KB * dt < data * 1000 <= kib * KB * dt
  {
    var speed := Speed(data, dt);
    var kib := TruncDiv(speed, KB);
    if data >= 0 then
      MulMono(kib * KB, speed, dt);
      MulMono(speed + 1, (kib + 1) * KB, dt);
      kib
    else
      MulMono(speed, kib * KB, dt);
      MulMono((kib - 1) * KB, speed - 1, dt);
      kib
  }

  lemma MulMono(x: int, y: int, c: int)
    requires x <= y && c >= 0
    ensures x * c <= y * c
  {
    assert y * c - x * c == (y - x) * c;
  }

  /** A delta whose exact rate is below `threshold` KiB/s. */
  ghost predicate SlowerThan(data: int, dt: int, threshold: int) {
    data * 1000 < threshold * KB * dt
  }

  /** The condition `shouldHide` tests for one direction, in exact
      arithmetic: a non-negative delta is below the threshold when its exact
      rate is; a negative delta, whose whole KiB/s rate is rounded toward
      zero, when its exact rate is at most one KiB/s under the threshold. */
  ghost predicate RateBelow(data: int, dt: int, threshold: int) {
    if data >= 0 then SlowerThan(data, dt, threshold)
    else data * 1000 <= (threshold - 1) * KB * dt
  }

  /** The whole KiB/s rate is below the threshold exactly when `RateBelow`
      holds. */
  lemma KiBRateBelow(data: int, dt: int, threshold: int)
    requires dt >= 1
    ensures KiBRate(data, dt) < threshold <==> RateBelow(data, dt, threshold)
  {
    var kib := KiBRate(data, dt);
    if data >= 0 {
      if kib < threshold {
        MulMono(kib + 1, threshold, KB);
        MulMono((kib + 1) * KB, threshold * KB, dt);
      } else {
        MulMono(threshold, kib, KB);
        MulMono(threshold * KB, kib * KB, dt);
      }
    } else {
      if kib < threshold {
        MulMono(kib, threshold - 1, KB);
        MulMono(kib * KB, (threshold - 1) * KB, dt);
      } else {
        MulMono(threshold - 1, kib - 1, KB);
        MulMono((threshold - 1) * KB, (kib - 1) * KB, dt);
      }
    }
  }

  /** `shouldHide`: with no network the label always hides; otherwise it
      hides when the rate of the direction(s) the mode watches is below the
      threshold in KiB/s (both directions for every mode but UP and DOWN). */
  function ShouldHide(mode: Mode, threshold: int, rxData: int, txData: int, dt: int, connected: bool): (hidden: bool)
    requires dt >= 1
    ensures !connected ==> hidden
    ensures connected && mode == Up ==> (hidden <==> RateBelow(txData, dt, threshold))
    ensures connected && mode == Down ==> (hidden <==> RateBelow(rxData, dt, threshold))
    ensures connected && mode !in {Up, Down} ==>
              (hidden <==> RateBelow(rxData, dt, threshold) && RateBelow(txData, dt, threshold))
  {
    KiBRateBelow(txData, dt, threshold);
    KiBRateBelow(rxData, dt, threshold);
    var txKiB := KiBRate(txData, dt);
    var rxKiB := KiBRate(rxData, dt);
    if mode == Up then !connected || txKiB < threshold
    else if mode == Down then !connected || rxKiB < threshold
    else !connected || (rxKiB < threshold && txKiB < threshold)
  }

  /** What the handler decides for the label in one applied tick. */
  datatype Decision = Decision(text: Text, trafficVisible: bool, iBytes: bool, oBytes: bool)

  /** The text of a shown tick: the rate(s) the mode selects. */
  function ShownText(cfg: Config, rxData: int, txData: int, dt: int): (t: Text)
    requires dt >= 1
    ensures t != []
    ensures Rates(t) == ShownRates(cfg.mode, Speed(rxData, dt), Speed(txData, dt), Speed(rxData + txData, dt))
    ensures cfg.mode == Up || (cfg.mode == Dynamic && txData > rxData) ==>
              t == FormatOutput(cfg.layout, cfg.mode, dt, txData)
    ensures cfg.mode == Down || (cfg.mode == Dynamic && txData <= rxData) ==>
              t == FormatOutput(cfg.layout, cfg.mode, dt, rxData)
    ensures cfg.mode == Both ==>
              t == FormatOutput(cfg.layout, Both, dt, txData) + [Literal("\n")] + FormatOutput(cfg.layout, Both, dt, rxData)
    ensures cfg.mode in {Combined, Unknown} ==> t == FormatOutput(cfg.layout, cfg.mode, dt, rxData + txData)
  {
    var tx := FormatOutput(cfg.layout, cfg.mode, dt, txData);
    var rx := FormatOutput(cfg.layout, cfg.mode, dt, rxData);
    match cfg.mode
    case Up => tx
    case Down => rx
    case Both =>
      RatesAppend(tx + [Literal("\n")], rx);
      RatesAppend(tx, [Literal("\n")]);
      assert Rates([Literal("\n")]) == [];
      tx + [Literal("\n")] + rx
    case Dynamic =>
      if txData > rxData then SpeedMonotone(rxData, txData, dt); tx
      else SpeedMonotone(txData, rxData, dt); rx
    case _ => FormatOutput(cfg.layout, cfg.mode, dt, rxData + txData)
  }

  /** The arrow flags of a shown tick. In DYNAMIC and COMBINED (and any
      unknown mode) the flag of the smaller direction is forced on; the other
      modes keep the flags computed from the deltas. */
  function ShownFlags(mode: Mode, rxData: int, txData: int, iBytes: bool, oBytes: bool): (f: (bool, bool))
    ensures mode in {Up, Down, Both} ==> f == (iBytes, oBytes)
    ensures mode in {Dynamic, Combined, Unknown} ==>
              && (f.0 || f.1)
              && (txData > rxData ==> f == (true, oBytes))
              && (txData <= rxData ==> f == (iBytes, true))
  {
    if mode in {Up, Down, Both} then (iBytes, oBytes)
    else if txData > rxData then (true, oBytes)
    else (iBytes, true)
  }

  /** The text and flags of one applied tick: nothing when hidden, otherwise
      the rate(s) and flags the mode selects. */
  function Decide(cfg: Config, rxData: int, txData: int, dt: int, connected: bool): (d: Decision)
    requires dt >= 1
    ensures d.trafficVisible <==> !ShouldHide(cfg.mode, cfg.autoHideThreshold, rxData, txData, dt, connected)
    ensures !d.trafficVisible ==> d.text == []
    ensures d.trafficVisible ==> d.text == ShownText(cfg, rxData, txData, dt)
    ensures d.trafficVisible ==> d.text != [] && Rates(d.text) == ShownRates(cfg.mode, Speed(rxData, dt), Speed(txData, dt), Speed(rxData + txData, dt))
    ensures !d.trafficVisible ==>
              d.iBytes == BelowThreshold(rxData, cfg.autoHideThreshold)
              && d.oBytes == BelowThreshold(txData, cfg.autoHideThreshold)
    ensures d.trafficVisible ==>
              (d.iBytes, d.oBytes) == ShownFlags(cfg.mode, rxData, txData,
                BelowThreshold(rxData, cfg.autoHideThreshold), BelowThreshold(txData, cfg.autoHideThreshold))
  {
    var iBytes := BelowThreshold(rxData, cfg.autoHideThreshold);
    var oBytes := BelowThreshold(txData, cfg.autoHideThreshold);
    if ShouldHide(cfg.mode, cfg.autoHideThreshold, rxData, txData, dt, connected) then
      Decision([], false, iBytes, oBytes)
    else
      var f := ShownFlags(cfg.mode, rxData, txData, iBytes, oBytes);
      Decision(ShownText(cfg, rxData, txData, dt), true, f.0, f.1)
  }

  /** The rates a shown label carries, read off the mode independently of how
      the text is assembled: UP the upload rate, DOWN the download rate, BOTH
      upload then download, DYNAMIC the larger of the two, and COMBINED (and
      any unknown mode) the rate of the summed deltas. */
  function ShownRates(mode: Mode, rxSpeed: int, txSpeed: int, sumSpeed: int): seq<int> {
    match mode
    case Up => [txSpeed]
    case Down => [rxSpeed]
    case Both => [txSpeed, rxSpeed]
    case Dynamic => [if txSpeed > rxSpeed then txSpeed else rxSpeed]
    case _ => [sumSpeed]
  }

  predicate ShowsUp(icon: Icon) {
    icon == UpArrow || icon == UpDownArrows
  }

  predicate ShowsDown(icon: Icon) {
    icon == DownArrow || icon == UpDownArrows
  }

  /** `updateTrafficDrawable`'s choice. An arrow points the way traffic is
      above the threshold: up when the tx flag is clear, down when the rx flag
      is clear; single-direction modes only ever show their own arrow, and
      DYNAMIC and COMBINED show one only when exactly one flag is clear. */
  function IconFor(cfg: Config, iBytes: bool, oBytes: bool): (icon: Icon)
    ensures icon == NoIcon <==> !(cfg.enabled && cfg.showArrow)
    ensures cfg.mode == Up ==>
              !ShowsDown(icon) && (ShowsUp(icon) <==> icon != NoIcon && !oBytes)
    ensures cfg.mode == Down ==>
              !ShowsUp(icon) && (ShowsDown(icon) <==> icon != NoIcon && !iBytes)
    ensures cfg.mode in {Dynamic, Combined} ==>
              && (ShowsUp(icon) <==> icon != NoIcon && iBytes && !oBytes)
              && (ShowsDown(icon) <==> icon != NoIcon && !iBytes && oBytes)
    ensures cfg.mode in {Both, Unknown} ==>
              && (ShowsUp(icon) <==> icon != NoIcon && !oBytes)
              && (ShowsDown(icon) <==> icon != NoIcon && !iBytes)
  {
    if !(cfg.enabled && cfg.showArrow) then NoIcon
    else match cfg.mode
      case Up => if oBytes then Plain else UpArrow
      case Down => if iBytes then Plain else DownArrow
      case Dynamic | Combined =>
        if iBytes && !oBytes then UpArrow
        else if !iBytes && oBytes then DownArrow
        else Plain
      case _ =>
        if !iBytes && !oBytes then UpDownArrows
        else if !oBytes then UpArrow
        else if !iBytes then DownArrow
        else Plain
  }

  /** `updateVisibility`: the view is shown iff the indicator is enabled, the
      last tick left traffic visible and it sits in the header; otherwise its
      text is cleared. Nothing else changes. */
  function UpdateVisibility(s: State, cfg: Config): (s': State)
    ensures s'.viewVisible <==> cfg.enabled && s.trafficVisible && cfg.inHeaderView
    ensures s'.viewVisible ==> s'.text == s.text
    ensures !s'.viewVisible ==> s'.text == []
    ensures s' == s.(viewVisible := s'.viewVisible, text := s'.text)
  {
    if cfg.enabled && s.trafficVisible && cfg.inHeaderView then s.(viewVisible := true)
    else s.(text := [], viewVisible := false)
  }

  /** The part of the state a tick's decision reads: both counter baselines
      and the clock of the last update. */
  datatype Baseline = Baseline(rx: int, tx: int, time: int)

  function BaselineOf(s: State): Baseline {
    Baseline(s.totalRxBytes, s.totalTxBytes, s.lastUpdateTime)
  }

  /** What an applied tick decides, from the deltas against the baselines
      and the elapsed time the rates use. */
  function Applied(b: Baseline, cfg: Config, r: Reading): Decision
    requires !Skipped(r.clockAtEntry - b.time, r.what)
  {
    Decide(cfg, r.rxTotal - b.rx, r.txTotal - b.tx, RateDelta(r.clockAtEntry - b.time, r.what), r.connected)
  }

  /** One run of the handler (`handleMessage`). */
  function Tick(s: State, cfg: Config, r: Reading): (s': State)
    ensures Skipped(r.clockAtEntry - s.lastUpdateTime, r.what) ==> s' == s
    ensures !Skipped(r.clockAtEntry - s.lastUpdateTime, r.what) ==>
              && s'.totalRxBytes == r.rxTotal
              && s'.totalTxBytes == r.txTotal
              && s'.lastUpdateTime == r.clockAtUpdate
              && s'.pending == [Refresh(INTERVAL)]
              && s'.trafficVisible == Applied(BaselineOf(s), cfg, r).trafficVisible
              && s'.iBytes == Applied(BaselineOf(s), cfg, r).iBytes
              && s'.oBytes == Applied(BaselineOf(s), cfg, r).oBytes
              && (s'.viewVisible <==> cfg.enabled && cfg.inHeaderView && s'.trafficVisible)
              && s'.text == (if s'.viewVisible then Applied(BaselineOf(s), cfg, r).text else [])
              && s'.icon == (if cfg.showArrow then IconFor(cfg, s'.iBytes, s'.oBytes) else s.icon)
  {
    var timeDelta := r.clockAtEntry - s.lastUpdateTime;
    if Skipped(timeDelta, r.what) then s
    else
      var d := Applied(BaselineOf(s), cfg, r);
      var decided := s.(text := d.text, trafficVisible := d.trafficVisible, iBytes := d.iBytes, oBytes := d.oBytes);
      var shown := UpdateVisibility(decided, cfg);
      var drawn := if cfg.showArrow then shown.(icon := IconFor(cfg, shown.iBytes, shown.oBytes)) else shown;
      drawn.(totalRxBytes := r.rxTotal, totalTxBytes := r.txTotal,
             lastUpdateTime := r.clockAtUpdate, pending := [Refresh(INTERVAL)])
  }

  /** `updateSettings` after a settings change, attach or connectivity
      broadcast. When enabled and attached it resets the rx baseline (only
      that one) and the clock, and records the forced message 1 alongside
      what is queued; when disabled it empties the queue. `pending` lists
      posts in the order they were made: the handler delivers the immediate
      message 1 before an earlier delayed refresh, and that tick's
      `clearHandlerCallbacks` removes the refresh. */
  function UpdateSettings(s: State, cfg: Config, attached: bool, rxTotal: int, now: int): (s': State)
    ensures s'.viewVisible <==> cfg.enabled && s.trafficVisible && cfg.inHeaderView
    ensures !s'.viewVisible ==> s'.text == []
    ensures s'.viewVisible ==> s'.text == s.text
    ensures s'.totalTxBytes == s.totalTxBytes
    ensures s'.trafficVisible == s.trafficVisible && s'.iBytes == s.iBytes && s'.oBytes == s.oBytes
    ensures !(cfg.enabled && attached) ==> s'.totalRxBytes == s.totalRxBytes && s'.lastUpdateTime == s.lastUpdateTime
    ensures cfg.enabled && attached ==>
              && s'.totalRxBytes == rxTotal
              && s'.lastUpdateTime == now
              && s'.pending == s.pending + [Message(FORCED_CODE)]
    ensures cfg.enabled && !attached ==>
              s'.totalRxBytes == s.totalRxBytes && s'.lastUpdateTime == s.lastUpdateTime && s'.pending == s.pending
    ensures cfg.enabled ==> s'.icon == IconFor(cfg, s.iBytes, s.oBytes)
    ensures !cfg.enabled ==> s'.pending == [] && s'.icon == s.icon && !s'.viewVisible
  {
    var v := UpdateVisibility(s, cfg);
    if cfg.enabled then
      var reset :=
        if attached then v.(totalRxBytes := rxTotal, lastUpdateTime := now, pending := v.pending + [Message(FORCED_CODE)])
        else v;
      reset.(icon := IconFor(cfg, reset.iBytes, reset.oBytes))
    else
      v.(pending := [])
  }
}
